=== FILE: README.md ===
# Spotify playlist extractor — a Dafny model of its scraping core

The extension's content script `extractor.js` scrapes a Spotify web-player playlist. The playlist is rendered through a virtualized grid, so only a window of rows exists at any moment. The script has five parts:

- It finds the element that scrolls the playlist (`findScrollableElement`).
- It repeatedly reads the rendered rows into a map keyed by track href (`getRowIndex`, `extractVisibleRows`).
- It scrolls on by one screen minus an overlap, waits briefly for new rows, and stops on stagnation (`startScraping`).
- It writes the collected tracks as CSV text (`downloadCSV`).
- A page flag stops a second injection from registering a second listener.

The model replaces the browser and the page with immutable inputs:

- A rendered row is a `RowSnapshot`: its trimmed gridcell texts, its anchors, its first image source, and whether an "Explicit" tag is present.
- A grid is its label, its width, and the overflow style and sizes of each element on its walk up to `body`.
- Each loop cycle is the rows it extracts from, plus the viewport observed after its scroll and wait.

Everything else is pure functions over these inputs, in these modules:

| module | file | models |
|---|---|---|
| `Text` | text.dfy | `parseInt(text, 10)` on trimmed text, `String(n)`, substring search, `join` |
| `Patterns` | patterns.dfy | the regular expressions `/^\d+:\d+$/` and `/\b\d{4}\b/` |
| `Seqs` | seqs.dfy | `find`/`findIndex`, `filter`, `map` and counting |
| `Rows` | rows.dfy | settings, snapshots, `getRowIndex`, the per-row field rules |
| `Collection` | collection.dfy | the href-keyed map as an insertion-ordered list; the merge and batch maximum of `extractVisibleRows` |
| `Csv` | csv.dfy | `downloadCSV` up to the text payload; an RFC 4180 record reader used to state what the lines mean |
| `ScrollTarget` | scroll_target.dfy | `findScrollableElement` |
| `Controller` | controller.dfy | the `startScraping` loop: bookkeeping, bounded wait, exits, termination |
| `Guard` | guard.dfy | the re-injection flag |
| `Scenario` | scenario.dfy | a row seen again after a scroll; a title containing quotes |

Details of the code that the model keeps:

- The duration and the date added come from the *last* qualifying gridcell, because each qualifying cell overwrites the previous value.
- Only title, artist and album have their double quotes doubled. Date added, duration, URL, cover and explicit are wrapped in quotes without escaping.
- The ancestor walk accepts an element whose `scrollHeight` is *equal to* its `clientHeight`.
- The high-water mark starts at 0, so a batch whose highest index is 0 is not progress.
- A row whose index reads as -1 yields no record, even when it has a track link.
- Exported URLs start with `http://open.spotify.com`.

## Model

| member | source | states |
|---|---|---|
| Text.ParseInt | extractor.js:92-94 | `parseInt` is NaN exactly when the text has no leading integer after an optional sign; a leading `-` gives a value ≤ 0, otherwise ≥ 0 (the values themselves are pinned by the two lemmas below) |
| Text.ParseIntOfDigits | extractor.js:93 | `parseInt` of a digit run followed by text that does not start with a digit is the run's decimal value, so leading zeros (`"007"`) read as if absent |
| Text.ParseIntOfDigitsAfterSign | extractor.js:93 | after a leading `+` the digit run reads as its value, after a leading `-` as its negation (`"+5"` is 5, `"-5"` is -5) |
| Text.ParseIntOfIntToString | extractor.js:93 | `parseInt` reads back `String(n)` for every integer `n`, whatever non-digit text follows |
| Text.IntToString | extractor.js:189 | `String(n)` of the bare index field: for `n ≥ 0` decimal digits without a leading zero (unless `n` is 0) whose value is `n`; for `n < 0` a `-` followed by such digits whose value is `-n`; so it is non-empty and holds no comma, double quote or line break |
| Text.JoinChars | extractor.js:118 | a character occurs in the result of `join(sep)` exactly when it occurs in one of the parts, or in the separator and there are at least two parts |
| Text.Utf16LengthOfBmp | extractor.js:136 | `text.length` counts UTF-16 code units: it equals the number of characters when every character lies in the Basic Multilingual Plane |
| Text.Utf16LengthOfAstral | extractor.js:136 | a character beyond the Basic Multilingual Plane makes `text.length` exceed the number of characters |
| Text.Utf16LengthCountsPairs | extractor.js:136 | `text.length` is exactly the number of characters plus the number of characters beyond the Basic Multilingual Plane, each of which is a surrogate pair |
| Patterns.ShapeColonEndsRun | extractor.js:133 | in a `digits:digits` split, the colon is exactly where the leading digit run ends |
| Patterns.IsDurationIsShape | extractor.js:133 | `IsDuration`, the digit-run reading of `/^\d+:\d+$/`, holds exactly when the text splits into digits, one colon, digits |
| Patterns.YearIsMaximalRun | extractor.js:137 | a `\b\d{4}\b` match found by `HasYear` is a run of exactly four digits that is not part of a longer number |
| Seqs.FirstWhere | extractor.js:13-15 | `find`: none exactly when no element qualifies; otherwise the position of the first qualifying element |
| Seqs.Filter | extractor.js:117-118 | `querySelectorAll('a[href*="/artist/"]')`: the result has one element per qualifying element, the qualifying element at position `i` lands at the position given by the number of qualifying elements before it, and nothing else is kept |
| Rows.RowIndexUnreadable | extractor.js:89-95 | `getRowIndex` (`GetRowIndex`) is -1 exactly when there is no gridcell, the first cell has no leading integer, or that integer is -1 |
| Rows.RowIndexOfRendered | extractor.js:89-95 | a first cell showing `String(n)`, possibly followed by non-digit text, reads as `n` |
| Rows.TrackLinkIsFirst | extractor.js:102-108 | a row has a track link exactly when its index is readable and some anchor's href contains `/track/`; the link is the first such anchor |
| Rows.ScanCells | extractor.js:127-142 | duration and date added are `""` when no cell qualifies, else the text of the last qualifying cell; the duration rule takes precedence over the date rule on each cell |
| Rows.TrackFields | extractor.js:113-161 | the record `BuildTrack`/`TrackOf` makes for a linked row carries the row's index (never -1); each disabled field is `""`; explicit is "Yes" exactly when its flag is set and a tag is present, and "No" otherwise; the URL is the base followed by the href; the enabled text fields are stated by `TrackTexts` and `TrackAlbum` |
| Rows.ArtistNames | extractor.js:117-118 | the artist texts are one per anchor whose href contains `/artist/`: the anchor at position `i` contributes its text at the position given by the number of artist anchors before it |
| Rows.FirstLinkToIsFirst | extractor.js:123-124 | `querySelector('a[href*="…"]')` finds nothing exactly when no anchor's href contains the marker, and otherwise the first anchor whose href does |
| Rows.TrackTexts | extractor.js:113-153 | with its flag on, the title is the track link's text, the artist is the artist texts joined with `"; "`, and the cover is the first image's source or `""` |
| Rows.TrackAlbum | extractor.js:121-125 | with the album flag on, the album is `""` when no anchor's href contains `/album/`, and otherwise the text of the first anchor whose href does |
| Rows.TrackTiming | extractor.js:127-142 | in that record, duration is `""` when no cell matches the duration pattern and otherwise the LAST matching cell; date added is `""` when no cell passes the date test and otherwise the last cell that does (each match overwrites the previous one); duration is `""` or a cell of the row matching the duration pattern; date added is `""` or a cell of the row whose UTF-16 length is below 25, that differs from title, artist and album, and that looks like a date; with the duration flag on, the date added never matches the duration pattern |
| Rows.DurationNeverDate | extractor.js:131-141 | with the duration flag on, whatever the cells hold, the date added the cell scan settles on never matches `/^\d+:\d+$/` |
| Collection.AddRow | extractor.js:107-161 | one row adds at most one entry, only for a linked row whose href is not yet a key; earlier entries are kept and keys stay unique |
| Collection.Merge | extractor.js:101-162 | the collection only grows as a prefix-preserving extension; keys stay unique; the new key set is the old one plus the hrefs of the batch's indexed, linked rows |
| Collection.BatchMax | extractor.js:99-105 | the returned value is -1 or the index of some row, and bounds every readable index, linked or not |
| Collection.ExtractVisibleRows | extractor.js:97-165 | the map keeps its entries and unique keys, gains exactly the hrefs of the batch's indexed, linked rows, and its values gain the records of first sightings of new hrefs in document order; the returned maximum is -1 or some row's index, and bounds every readable index |
| Collection.MergeAppend | extractor.js:101-162 | merging two batches one after the other is merging them as one batch |
| Collection.MergeCons | extractor.js:101-162 | `forEach` handles the rows one at a time: merging a batch is adding its first row, then merging the rest |
| Collection.MergeValues | extractor.js:101-162 | `Array.from(map.values())` after the merge is the old list followed by `FreshTracks`: the record of each row that is the first of the batch with an href not yet in the map, in document order |
| Collection.MergeKnownRows | extractor.js:110-111 | a batch whose hrefs are all already keys changes nothing |
| Collection.MergeIdempotent | extractor.js:101-162 | extracting the same rows twice adds nothing the second time |
| Collection.MergeFirstWins | extractor.js:110-161 | every appended entry has an href that was not a key before, and holds the record built from the first row of the batch with that href |
| Collection.MergeKeepsEntries | extractor.js:111 | an existing entry is never overwritten by a later batch |
| Csv.Select | extractor.js:171-182 | the flag gating keeps one element per enabled flag, in column order: the element of an enabled column lands at the position given by the number of enabled columns before it, and nothing else is kept |
| Csv.HeaderRoundTrip | extractor.js:171-184 | the header line reads back as one label per enabled flag, in the order #, Title, Artist, Album, Date Added, Length, URL, Cover Art, Explicit |
| Csv.Escape | extractor.js:191-193 | quote doubling lengthens the value by exactly its number of double quotes |
| Csv.UnescapeEscape | extractor.js:191-193 | collapsing `""` back to `"` recovers the original value |
| Csv.WrapIsQuote | extractor.js:194-198 | for a value without a double quote, the unescaped quoting of the other five fields equals escaped quoting |
| Csv.RowCells | extractor.js:186-199 | every data line has as many fields as the header |
| Csv.RowRoundTrip | extractor.js:186-200 | a data line reads back, field by field, as the enabled values, with the index as `String(index)` |
| Csv.SortByIndex | extractor.js:169 | the sort is a permutation, non-decreasing by index, and keeps equal indices in insertion order |
| Csv.Table | extractor.js:169-201 | the payload has one record more than there are tracks; the first record is the header; every record has as many fields as the header |
| Csv.RenderLines | extractor.js:184-200 | records whose fields hold no line break, each joined with `,` and ended by `\n`, split back at `\n` into exactly those joined records |
| Csv.ExportLines | extractor.js:167-201 | read line by line, the `downloadCSV` text is the header line, then one line per collected track, sorted stably by index, with that track's fields |
| ScrollTarget.Widest | extractor.js:17-21 | the `reduce` fallback picks a grid of maximum width, and no later grid is as wide (the later grid wins a tie) |
| ScrollTarget.PreferredGrid | extractor.js:13-21 | none exactly when there is no grid; the first main grid when one exists; otherwise the widest grid, the last of equals |
| ScrollTarget.FindScrollableElement | extractor.js:11-37 | discovery fails exactly when there is no grid; the target is the first element of the preferred grid's walk with a scrolling overflow style and `scrollHeight >= clientHeight`, else the document root |
| Controller.Step | extractor.js:55-61 | the mark never decreases and is at least the batch maximum; the counter resets to 0 exactly when the batch maximum exceeds the mark, otherwise it grows by one |
| Controller.SmartWait | extractor.js:66-79 | the wait polls between 1 and 10 times; it ends early exactly at the first poll showing a row beyond the mark |
| Controller.StopAfterStep | extractor.js:55-83 | after the bookkeeping of a batch that is not progress, the loop exits exactly when the viewport is within 50 of the bottom and the counter reaches 2, or the counter exceeds 5; after progress it never exits |
| Controller.RunLoop | extractor.js:52-84 | a stopped run stopped at a cycle where an exit holds; the collection only grows and keeps unique keys; the mark never decreases and bounds every consumed batch maximum |
| Controller.RunLoopKeys | extractor.js:52-84 | the hrefs of the final collection are the starting ones plus those of the indexed, linked rows of exactly the consumed cycles |
| Controller.RunLoopMark | extractor.js:55-57 | the final mark is the starting mark or the batch maximum of some consumed cycle |
| Controller.StallStops | extractor.js:83 | with no progress and never at the bottom, a run whose counter is `k` stops after exactly `6 - k` cycles |
| Controller.StallFromStart | extractor.js:49-83 | with no progress from the start and never at the bottom, the loop stops after exactly six cycles |
| Controller.BottomStops | extractor.js:81-82 | with no progress and always at the bottom, the loop stops after two cycles, or one when the counter is already positive |
| Controller.BoundedIndicesStop | extractor.js:52-84 | when no batch maximum exceeds a bound, `6 * (bound - mark) + 6 - counter` cycles always end the loop |
| Controller.TerminatesFromStart | extractor.js:49-84 | from the start, `6 * (bound + 1)` cycles end the loop when no index exceeds `bound` |
| Controller.StartScraping | extractor.js:39-86 | the run aborts exactly when there is no grid, and exports exactly when there is a grid and the loop from an empty map and mark 0 stops within the observed cycles; an export carries the CSV of the collection that loop built and its cycle count |
| Controller.ScrapingCollects | extractor.js:43-86 | the collection of the run an export writes out, from an empty map and mark 0 until the loop stops, has unique hrefs, and they are exactly the hrefs of the indexed, linked rows of the consumed cycles |
| Controller.ScrapingExports | extractor.js:39-86 | on a page with a grid, `6 * (bound + 1)` observed cycles guarantee an export when no row index exceeds `bound` |
| Guard.Inject | extractor.js:2-3 | an injection always leaves the flag set; it adds a listener only when the flag was not yet set |
| Guard.InjectedOnce | extractor.js:2-3 | any number of injections into a fresh page leaves exactly one listener |
| Scenario.OneRow | extractor.js:101-161 | a linked row extracted into an empty map gives exactly one record: its href, holding the track built from it |
| Scenario.TwoRows | extractor.js:101-161 | two linked rows with different hrefs give two records in document order, each holding its own row's track |
| Scenario.ReappearingRow | extractor.js:110-111 | after those two rows, re-extracting the first row after a scroll adds nothing |
| Scenario.ReappearingRowExport | extractor.js:167-169 | when the first of the two has the lower index, the export lists its track first, then the other |
| Scenario.QuotedWord | extractor.js:191 | a value like `He said "Hi"` is written with both quotes doubled, and reads back unchanged |

## Left out

- The message listener (extractor.js:5-9): it is event wiring. `Guard` counts registered listeners but does not model dispatch.
- `alert` (extractor.js:24) and `console.log` (extractor.js:58): user-facing side effects. Discovery failure is the `Aborted` outcome.
- Timers and waits (extractor.js:44, 47, 69): they only delay. `SmartWait` keeps the poll's control flow, and the loop never reads its result.
- The initial scroll to the top (extractor.js:46) and the scroll step of `clientHeight - 150` (extractor.js:63-64). The browser clamps the assigned offset, so each cycle's viewport after scrolling is an input.
- DOM access (`querySelector`, `innerText`, `getComputedStyle`, `clientWidth`, `img.src`): replaced by snapshot fields. Gridcell texts arrive already trimmed, so the whitespace set of `trim` is not modelled.
- The Blob, object URL and anchor-click download (extractor.js:203-210): a file-export side effect. The model ends at the CSV text; `Csv.FileName` records the suggested name.
- popup.js: settings reading, storage, tab query and injection are host glue. `Settings` carries the nine flags it sends.
- Text.ParseInt: `parseInt` yields a double, which rounds integers above 2^53; the model's integers are exact. `-0` reads as 0, which prints the same.
- Text.IntToString: `String` switches to exponent form at 10^21; the model always writes plain digits.
- Controller.RunLoop: no contract says the stopping cycle is the *first* one where an exit holds. StallStops and BottomStops pin the exact count in the two stagnation cases.
- Csv.RowRoundTrip: requires date added, duration, URL, cover and explicit to hold no double quote. The code writes them without escaping, so such a value does not read back.
- Csv.RowRoundTrip and Csv.HeaderRoundTrip: require at least one enabled flag, since an empty line reads as one empty field.
- Guard.Inject: models the flag and a listener count only, not the listener's behaviour.
- Csv.ExportLines: requires no text field of a collected track to hold a line break. The code writes such a field as is, so the file then has more lines than records.

=== FILE: collection.dfy ===
/**
 * The collected tracks of one run and `extractVisibleRows`: the batch's
 * highest row index and the merge of new rows into the collection. The
 * JavaScript `Map` keyed by href is modelled as its insertion-ordered list
 * of (href, track) entries.
 */
module Collection {
  import opened Wrappers
  import opened Rows
  import opened Seqs

  datatype Entry = Entry(key: string, track: Track)

  type Collection = seq<Entry>

  function KeysOf(c: Collection): set<string> {
    set i | 0 <= i < |c| :: c[i].key
  }

  /** `map.has(key)`. */
  predicate Has(c: Collection, key: string) {
    exists i | 0 <= i < |c| :: c[i].key == key
  }

  /** No href appears twice, as in a `Map`. */
  ghost predicate UniqueKeys(c: Collection) {
    forall i, j | 0 <= i < j < |c| :: c[i].key != c[j].key
  }

  /** `Array.from(map.values())`: the tracks in insertion order. */
  function Values(c: Collection): seq<Track> {
    Map(c, EntryTrack)
  }

  function EntryTrack(e: Entry): Track {
    e.track
  }

  /** The identities the rows of a batch offer for collection. */
  ghost function RowKeys(rows: seq<RowSnapshot>): set<string> {
    set i | 0 <= i < |rows| && RowKey(rows[i]).Some? :: RowKey(rows[i]).value
  }

  /** The row is the first in the batch that offers `key`. */
  ghost predicate FirstSighting(rows: seq<RowSnapshot>, i: int, key: string) {
    && 0 <= i < |rows|
    && RowKey(rows[i]) == Some(key)
    && forall j | 0 <= j < i :: RowKey(rows[j]) != Some(key)
  }

  /** The identities a single row offers: none, or its href. */
  ghost function RowKeySet(row: RowSnapshot): set<string> {
    if RowKey(row).Some? then {RowKey(row).value} else {}
  }

  lemma RowKeysSnoc(rows: seq<RowSnapshot>)
    requires |rows| > 0
    ensures RowKeys(rows) == RowKeys(rows[..|rows| - 1]) + RowKeySet(rows[|rows| - 1])
  {
    var init := rows[..|rows| - 1];
    assert forall i | 0 <= i < |init| :: init[i] == rows[i];
  }

  lemma NotInRowKeys(rows: seq<RowSnapshot>, key: string)
    requires key !in RowKeys(rows)
    ensures forall j | 0 <= j < |rows| :: RowKey(rows[j]) != Some(key)
  {
    forall j | 0 <= j < |rows|
      ensures RowKey(rows[j]) != Some(key)
    {
      if RowKey(rows[j]).Some? {
        assert RowKey(rows[j]).value in RowKeys(rows);
      }
    }
  }

  /** One iteration of the `forEach` in `extractVisibleRows`: add the row unless its href is known. */
  function AddRow(c: Collection, row: RowSnapshot, s: Settings): (r: Collection)
    ensures |c| <= |r| && r[..|c|] == c
    ensures UniqueKeys(c) ==> UniqueKeys(r)
    ensures KeysOf(r) == KeysOf(c) + RowKeySet(row)
    ensures |r| > |c| ==>
      && RowKey(row).Some? && !Has(c, RowKey(row).value)
      && r == c + [Entry(RowKey(row).value, TrackOf(row, s))]
  {
    match RowKey(row)
    case None => c
    case Some(key) =>
      if Has(c, key) then c
      else
        var r := c + [Entry(key, TrackOf(row, s))];
        assert KeysOf(r) == KeysOf(c) + {key} by {
          assert forall i | 0 <= i < |c| :: r[i] == c[i];
          assert r[|c|].key == key;
        }
        r
  }

  /**
   * The merge performed by `extractVisibleRows`: rows in document order,
   * first sighting of an href wins, existing entries are left alone.
   */
  function Merge(c: Collection, rows: seq<RowSnapshot>, s: Settings): (r: Collection)
    ensures |c| <= |r| && r[..|c|] == c
    ensures UniqueKeys(c) ==> UniqueKeys(r)
    ensures KeysOf(r) == KeysOf(c) + RowKeys(rows)
  {
    if |rows| == 0 then c
    else
      var prev := Merge(c, rows[..|rows| - 1], s);
      RowKeysSnoc(rows);
      var r := AddRow(prev, rows[|rows| - 1], s);
      assert r[..|c|] == r[..|prev|][..|c|];
      r
  }

  /** Merging one more row is one more `AddRow`. */
  lemma MergeSnoc(c: Collection, rows: seq<RowSnapshot>, row: RowSnapshot, s: Settings)
    ensures Merge(c, rows + [row], s) == AddRow(Merge(c, rows, s), row, s)
  {
    assert (rows + [row])[..|rows|] == rows;
  }

  /**
   * The highest index among the batch's readable rows (linked or not), or -1
   * when no row has a readable index.
   */
  function BatchMax(rows: seq<RowSnapshot>): (r: int)
    ensures r >= NoIndex
    ensures forall i | 0 <= i < |rows| && GetRowIndex(rows[i]) != NoIndex :: GetRowIndex(rows[i]) <= r
    ensures r == NoIndex || exists i | 0 <= i < |rows| :: GetRowIndex(rows[i]) == r
  {
    if |rows| == 0 then NoIndex
    else
      var init := rows[..|rows| - 1];
      var m := BatchMax(init);
      var x := GetRowIndex(rows[|rows| - 1]);
      assert forall i | 0 <= i < |init| :: init[i] == rows[i];
      if x != NoIndex && x > m then x else m
  }

  datatype Extraction = Extraction(collected: Collection, maxIndex: int)

  /**
   * `extractVisibleRows(map, settings)`: the updated map and the batch
   * maximum. Earlier entries stay as they were, the map now knows every href
   * of the batch, and the tracks of first sightings of new hrefs follow in
   * document order; the maximum bounds every readable index and is one of
   * them, or -1 when there is none.
   */
  function ExtractVisibleRows(c: Collection, rows: seq<RowSnapshot>, s: Settings): (r: Extraction)
    ensures |c| <= |r.collected| && r.collected[..|c|] == c
    ensures UniqueKeys(c) ==> UniqueKeys(r.collected)
    ensures KeysOf(r.collected) == KeysOf(c) + RowKeys(rows)
    ensures Values(r.collected) == Values(c) + FreshTracks(KeysOf(c), rows, s)
    ensures forall i | 0 <= i < |rows| && GetRowIndex(rows[i]) != NoIndex :: GetRowIndex(rows[i]) <= r.maxIndex
    ensures r.maxIndex == NoIndex || exists i | 0 <= i < |rows| :: GetRowIndex(rows[i]) == r.maxIndex
  {
    MergeValues(c, rows, s);
    Extraction(Merge(c, rows, s), BatchMax(rows))
  }

  /** Rows whose identities are all known add nothing. */
  lemma {:induction false} MergeKnownRows(c: Collection, rows: seq<RowSnapshot>, s: Settings)
    requires RowKeys(rows) <= KeysOf(c)
    ensures Merge(c, rows, s) == c
  {
    if |rows| > 0 {
      var init := rows[..|rows| - 1];
      var row := rows[|rows| - 1];
      assert RowKeys(init) <= RowKeys(rows) by {
        assert forall i | 0 <= i < |init| :: init[i] == rows[i];
      }
      MergeKnownRows(c, init, s);
      if RowKey(row).Some? {
        var key := RowKey(row).value;
        assert key in RowKeys(rows);
        assert key in KeysOf(c);
        assert Has(c, key);
      }
    }
  }

  /** Re-scanning an unchanged batch adds nothing: the merge is idempotent. */
  lemma MergeIdempotent(c: Collection, rows: seq<RowSnapshot>, s: Settings)
    ensures Merge(Merge(c, rows, s), rows, s) == Merge(c, rows, s)
  {
    MergeKnownRows(Merge(c, rows, s), rows, s);
  }

  /** The merge appends an entry whose track was built from the first row of the batch with that href. */
  ghost predicate AppendedFrom(c: Collection, rows: seq<RowSnapshot>, s: Settings, e: Entry) {
    && e.key !in KeysOf(c)
    && exists i | 0 <= i < |rows| :: FirstSighting(rows, i, e.key) && e.track == TrackOf(rows[i], s)
  }

  /** An entry appended for an earlier row keeps its witness when the batch grows. */
  lemma AppendedFromExtends(c: Collection, rows: seq<RowSnapshot>, s: Settings, e: Entry)
    requires |rows| > 0
    requires AppendedFrom(c, rows[..|rows| - 1], s, e)
    ensures AppendedFrom(c, rows, s, e)
  {
    var init := rows[..|rows| - 1];
    var i :| 0 <= i < |init| && FirstSighting(init, i, e.key) && e.track == TrackOf(init[i], s);
    assert forall k | 0 <= k <= i :: init[k] == rows[k];
    assert FirstSighting(rows, i, e.key);
  }

  /** A last row whose href no earlier row offers is the first sighting of that href. */
  lemma LastIsFirstSighting(rows: seq<RowSnapshot>, key: string)
    requires |rows| > 0 && RowKey(rows[|rows| - 1]) == Some(key)
    requires key !in RowKeys(rows[..|rows| - 1])
    ensures FirstSighting(rows, |rows| - 1, key)
  {
    var init := rows[..|rows| - 1];
    NotInRowKeys(init, key);
    assert forall k | 0 <= k < |init| :: init[k] == rows[k];
  }

  /** The entry appended for the last row of a batch is that row's, under an href new to both the collection and the earlier rows. */
  lemma LastEntry(c: Collection, rows: seq<RowSnapshot>, s: Settings)
    requires |rows| > 0
    requires |Merge(c, rows, s)| > |Merge(c, rows[..|rows| - 1], s)|
    ensures var row := rows[|rows| - 1];
      && RowKey(row).Some?
      && RowKey(row).value !in KeysOf(c) + RowKeys(rows[..|rows| - 1])
      && Merge(c, rows, s)[|Merge(c, rows, s)| - 1] == Entry(RowKey(row).value, TrackOf(row, s))
  {
    var prev := Merge(c, rows[..|rows| - 1], s);
    var row := rows[|rows| - 1];
    assert Merge(c, rows, s) == AddRow(prev, row, s);
    assert !Has(prev, RowKey(row).value);
  }

  /** The entry appended for the last row of a batch. */
  lemma AppendedLast(c: Collection, rows: seq<RowSnapshot>, s: Settings)
    requires |rows| > 0
    requires |Merge(c, rows, s)| > |Merge(c, rows[..|rows| - 1], s)|
    ensures AppendedFrom(c, rows, s, Merge(c, rows, s)[|Merge(c, rows, s)| - 1])
  {
    LastEntry(c, rows, s);
    LastIsFirstSighting(rows, RowKey(rows[|rows| - 1]).value);
  }

  /**
   * Every entry the merge appends has an href not previously collected, and
   * holds the record built from the first row of the batch with that href.
   */
  lemma {:induction false} MergeFirstWins(c: Collection, rows: seq<RowSnapshot>, s: Settings, j: int)
    requires |c| <= j < |Merge(c, rows, s)|
    ensures AppendedFrom(c, rows, s, Merge(c, rows, s)[j])
  {
    var r := Merge(c, rows, s);
    var init := rows[..|rows| - 1];
    var prev := Merge(c, init, s);
    if j < |prev| {
      MergeFirstWins(c, init, s, j);
      assert r[j] == r[..|prev|][j];
      AppendedFromExtends(c, rows, s, prev[j]);
    } else {
      AppendedLast(c, rows, s);
    }
  }

  /** A known href is never overwritten: an entry keeps its track across any later batch. */
  lemma MergeKeepsEntries(c: Collection, rows: seq<RowSnapshot>, s: Settings, i: int)
    requires 0 <= i < |c|
    ensures i < |Merge(c, rows, s)| && Merge(c, rows, s)[i] == c[i]
  {
    var r := Merge(c, rows, s);
    assert r[..|c|][i] == r[i];
  }

  /** Merging two batches one after the other is merging them as one. */
  lemma {:induction false} MergeAppend(c: Collection, xs: seq<RowSnapshot>, ys: seq<RowSnapshot>, s: Settings)
    ensures Merge(c, xs + ys, s) == Merge(Merge(c, xs, s), ys, s)
    decreases |ys|
  {
    if |ys| == 0 {
      assert xs + ys == xs;
    } else {
      var init := ys[..|ys| - 1];
      var last := ys[|ys| - 1];
      assert xs + ys == (xs + init) + [last];
      assert ys == init + [last];
      MergeSnoc(c, xs + init, last, s);
      MergeAppend(c, xs, init, s);
      MergeSnoc(Merge(c, xs, s), init, last, s);
    }
  }

  /** A batch of one row is one `AddRow`. */
  lemma MergeOne(c: Collection, row: RowSnapshot, s: Settings)
    ensures Merge(c, [row], s) == AddRow(c, row, s)
  {
    MergeSnoc(c, [], row, s);
    assert [] + [row] == [row];
  }

  /** Merging a row and then the rest is the merge of the whole batch. */
  lemma MergeCons(c: Collection, row: RowSnapshot, rest: seq<RowSnapshot>, s: Settings)
    ensures Merge(c, [row] + rest, s) == Merge(AddRow(c, row, s), rest, s)
  {
    MergeAppend(c, [row], rest, s);
    MergeOne(c, row, s);
  }

  /**
   * The tracks a batch contributes, read front to back as the `forEach`
   * meets its rows: a row with an href not yet in `known` contributes its
   * track and makes that href known; every other row contributes nothing.
   */
  function FreshTracks(known: set<string>, rows: seq<RowSnapshot>, s: Settings): seq<Track>
    decreases |rows|
  {
    if |rows| == 0 then []
    else
      match RowKey(rows[0])
      case None => FreshTracks(known, rows[1..], s)
      case Some(key) =>
        if key in known then FreshTracks(known, rows[1..], s)
        else [TrackOf(rows[0], s)] + FreshTracks(known + {key}, rows[1..], s)
  }

  /** What a row adds to the listed values: its track when its href is new to the collection. */
  function Contribution(c: Collection, row: RowSnapshot, s: Settings): seq<Track> {
    if RowKey(row).Some? && RowKey(row).value !in KeysOf(c) then [TrackOf(row, s)] else []
  }

  /** Listing the values after one more row. */
  lemma AddRowValues(c: Collection, row: RowSnapshot, s: Settings)
    ensures Values(AddRow(c, row, s)) == Values(c) + Contribution(c, row, s)
  {
    if RowKey(row).Some? {
      var key := RowKey(row).value;
      if key in KeysOf(c) {
        var i :| 0 <= i < |c| && c[i].key == key;
        assert Has(c, key);
      } else {
        assert !Has(c, key);
      }
    }
  }

  /** The fresh tracks of a batch start with its first row's contribution. */
  lemma FreshTracksFront(c: Collection, rows: seq<RowSnapshot>, s: Settings)
    requires |rows| > 0
    ensures FreshTracks(KeysOf(c), rows, s)
      == Contribution(c, rows[0], s) + FreshTracks(KeysOf(AddRow(c, rows[0], s)), rows[1..], s)
  {
    assert KeysOf(AddRow(c, rows[0], s)) == KeysOf(c) + RowKeySet(rows[0]);
  }

  /** The merge of a batch is the merge of its tail into the collection after its first row. */
  lemma MergeFront(c: Collection, rows: seq<RowSnapshot>, s: Settings)
    requires |rows| > 0
    ensures Merge(c, rows, s) == Merge(AddRow(c, rows[0], s), rows[1..], s)
  {
    assert rows == [rows[0]] + rows[1..];
    MergeCons(c, rows[0], rows[1..], s);
  }

  /**
   * `Array.from(map.values())` after a batch: the tracks already collected,
   * in their order, followed by the track of each row that is the first to
   * offer a new href, in document order. This order decides ties in the
   * exported sort.
   */
  lemma {:induction false} MergeValues(c: Collection, rows: seq<RowSnapshot>, s: Settings)
    ensures Values(Merge(c, rows, s)) == Values(c) + FreshTracks(KeysOf(c), rows, s)
    decreases |rows|
  {
    if |rows| > 0 {
      var c1 := AddRow(c, rows[0], s);
      var mine := Contribution(c, rows[0], s);
      var later := FreshTracks(KeysOf(c1), rows[1..], s);
      MergeFront(c, rows, s);
      MergeValues(c1, rows[1..], s);
      AddRowValues(c, rows[0], s);
      FreshTracksFront(c, rows, s);
      AppendAssoc(Values(c), mine, later);
    }
  }
}

=== FILE: controller.dfy ===
/**
 * `startScraping`: the scroll-extract-converge loop. The page is abstracted
 * into what each cycle observes: the rows rendered when the cycle extracts,
 * and the viewport measured after the cycle's scroll and bounded wait.
 */
module Controller {
  import opened Wrappers
  import opened Rows
  import opened Collection
  import opened Csv
  import opened ScrollTarget

  /** The bottom is reached within this many pixels of the maximum scroll offset. */
  const BottomTolerance := 50
  /** At the bottom, this many non-progressing cycles end the run. */
  const BottomStagnation := 2
  /** More non-progressing cycles than this end the run anywhere. */
  const StallCap := 5
  /** The bounded wait polls at most this many times. */
  const PollAttempts := 10

  /** The high-water mark of row indices and the stagnation counter. */
  datatype Progress = Progress(lastHighestIndex: int, noNewDataCount: nat)

  /** Both start at 0, so a batch whose highest index is 0 is no progress. */
  const Start := Progress(0, 0)

  /** The bookkeeping after one extraction, given the batch's highest index. */
  function Step(p: Progress, batchMax: int): (r: Progress)
    ensures r.lastHighestIndex >= p.lastHighestIndex && r.lastHighestIndex >= batchMax
    ensures r.lastHighestIndex == p.lastHighestIndex || r.lastHighestIndex == batchMax
    ensures r.noNewDataCount == 0 <==> batchMax > p.lastHighestIndex
    ensures batchMax <= p.lastHighestIndex ==> r.noNewDataCount == p.noNewDataCount + 1
  {
    if batchMax > p.lastHighestIndex then Progress(batchMax, 0)
    else Progress(p.lastHighestIndex, p.noNewDataCount + 1)
  }

  /** The scrolled element's measurements, as observed after the browser applied the scroll. */
  datatype Viewport = Viewport(scrollTop: int, clientHeight: int, scrollHeight: int)

  predicate IsAtBottom(v: Viewport) {
    v.scrollTop + v.clientHeight >= v.scrollHeight - BottomTolerance
  }

  /** The two exits of the loop. */
  predicate ShouldStop(p: Progress, atBottom: bool) {
    (atBottom && p.noNewDataCount >= BottomStagnation) || p.noNewDataCount > StallCap
  }

  /**
   * The exits after one cycle's bookkeeping, in terms of the state before it:
   * a cycle that raises the mark never ends the loop; otherwise the loop ends
   * at the bottom once the grown counter reaches 2, and anywhere once it
   * exceeds 5.
   */
  lemma StopAfterStep(p: Progress, batchMax: int, v: Viewport)
    ensures ShouldStop(Step(p, batchMax), IsAtBottom(v)) <==>
      && batchMax <= p.lastHighestIndex
      && ((v.scrollTop + v.clientHeight >= v.scrollHeight - 50 && p.noNewDataCount + 1 >= 2)
          || p.noNewDataCount + 1 > 5)
  {
  }

  /** Whether a poll finds a rendered row beyond the mark. */
  predicate ShowsNewRow(rows: seq<RowSnapshot>, mark: int) {
    exists i | 0 <= i < |rows| :: GetRowIndex(rows[i]) > mark
  }

  /**
   * The bounded wait after each scroll, one snapshot of the rendered rows per
   * poll. It ends at the first poll showing a row beyond the mark, or after
   * the last attempt. Its result only decides how long the cycle waits: the
   * loop never reads it.
   */
  method SmartWait(polls: seq<seq<RowSnapshot>>, mark: int) returns (attempts: nat, loaded: bool)
    requires |polls| == PollAttempts
    ensures 1 <= attempts <= PollAttempts
    ensures loaded <==> ShowsNewRow(polls[attempts - 1], mark)
    ensures forall j | 0 <= j < attempts - 1 :: !ShowsNewRow(polls[j], mark)
    ensures !loaded ==> attempts == PollAttempts
  {
    attempts := 0;
    loaded := false;
    while attempts < PollAttempts && !loaded
      invariant 0 <= attempts <= PollAttempts
      invariant loaded ==> attempts >= 1 && ShowsNewRow(polls[attempts - 1], mark)
      invariant !loaded ==> forall j | 0 <= j < attempts :: !ShowsNewRow(polls[j], mark)
      invariant loaded ==> forall j | 0 <= j < attempts - 1 :: !ShowsNewRow(polls[j], mark)
    {
      var rows := polls[attempts];
      var k := 0;
      while k < |rows| && !loaded
        invariant 0 <= k <= |rows|
        invariant loaded ==> ShowsNewRow(rows, mark)
        invariant !loaded ==> forall m | 0 <= m < k :: GetRowIndex(rows[m]) <= mark
      {
        if GetRowIndex(rows[k]) > mark {
          loaded := true;
        }
        k := k + 1;
      }
      attempts := attempts + 1;
    }
  }

  /** What one cycle observes: the rows it extracts from, and the viewport after scrolling and waiting. */
  datatype Cycle = Cycle(rows: seq<RowSnapshot>, after: Viewport)

  datatype RunState = RunState(collected: Collection, progress: Progress)

  /** The loop either stopped after some cycles, or was still running when the observations ran out. */
  datatype LoopEnd = Stopped(state: RunState, cycles: nat) | Running(state: RunState)

  /** How many observed cycles the loop consumed. */
  function Consumed(r: LoopEnd, available: nat): nat {
    if r.Stopped? then r.cycles else available
  }

  /** The mark bounds the batch maxima of the first `n` cycles. */
  ghost predicate BoundsBatches(cycles: seq<Cycle>, n: nat, mark: int) {
    forall i | 0 <= i < n && i < |cycles| :: BatchMax(cycles[i].rows) <= mark
  }

  lemma BoundsBatchesCons(cycles: seq<Cycle>, n: nat, mark: int)
    requires |cycles| > 0 && BatchMax(cycles[0].rows) <= mark
    requires BoundsBatches(cycles[1..], n, mark)
    ensures BoundsBatches(cycles, n + 1, mark)
  {
    assert forall i | 1 <= i < |cycles| :: cycles[i] == cycles[1..][i - 1];
  }

  /** The mark is the starting mark or the batch maximum of one of the first `n` cycles. */
  ghost predicate MarkObserved(cycles: seq<Cycle>, n: nat, start: int, mark: int) {
    mark == start || exists i | 0 <= i < n && i < |cycles| :: BatchMax(cycles[i].rows) == mark
  }

  lemma MarkObservedCons(cycles: seq<Cycle>, n: nat, start: int, next: int, mark: int)
    requires |cycles| > 0 && (next == start || next == BatchMax(cycles[0].rows))
    requires MarkObserved(cycles[1..], n, next, mark)
    ensures MarkObserved(cycles, n + 1, start, mark)
  {
    if mark != next {
      var i :| 0 <= i < n && i < |cycles| - 1 && BatchMax(cycles[1..][i].rows) == mark;
      assert cycles[1..][i] == cycles[i + 1];
    }
  }

  /** The hrefs offered by the rows of the first `n` cycles. */
  ghost function CycleKeys(cycles: seq<Cycle>, n: nat): set<string>
    decreases n
  {
    if n == 0 || |cycles| == 0 then {} else RowKeys(cycles[0].rows) + CycleKeys(cycles[1..], n - 1)
  }

  /** A prefix of a prefix is a prefix. */
  lemma PrefixOfPrefix(a: Collection, b: Collection, c: Collection)
    requires |a| <= |b| && b[..|a|] == a
    requires |b| <= |c| && c[..|b|] == b
    ensures c[..|a|] == a
  {
    assert c[..|a|] == c[..|b|][..|a|];
  }

  /** One cycle's extraction followed by the bookkeeping. */
  function NextState(st: RunState, cycle: Cycle, s: Settings): RunState {
    var extraction := ExtractVisibleRows(st.collected, cycle.rows, s);
    RunState(extraction.collected, Step(st.progress, extraction.maxIndex))
  }

  /**
   * The `while (true)` loop: extract, update the bookkeeping, scroll and wait,
   * then test the exits.
   */
  function RunLoop(st: RunState, cycles: seq<Cycle>, s: Settings): (r: LoopEnd)
    ensures r.Stopped? ==> 1 <= r.cycles <= |cycles|
    ensures r.Stopped? ==> ShouldStop(r.state.progress, IsAtBottom(cycles[r.cycles - 1].after))
    ensures |st.collected| <= |r.state.collected| && r.state.collected[..|st.collected|] == st.collected
    ensures UniqueKeys(st.collected) ==> UniqueKeys(r.state.collected)
    ensures r.state.progress.lastHighestIndex >= st.progress.lastHighestIndex
    ensures BoundsBatches(cycles, Consumed(r, |cycles|), r.state.progress.lastHighestIndex)
    decreases |cycles|
  {
    if |cycles| == 0 then Running(st)
    else
      var next := NextState(st, cycles[0], s);
      if ShouldStop(next.progress, IsAtBottom(cycles[0].after)) then Stopped(next, 1)
      else
        var rest := RunLoop(next, cycles[1..], s);
        PrefixOfPrefix(st.collected, next.collected, rest.state.collected);
        BoundsBatchesCons(cycles, Consumed(rest, |cycles| - 1), rest.state.progress.lastHighestIndex);
        match rest
        case Stopped(final, n) =>
          assert cycles[n] == cycles[1..][n - 1];
          Stopped(final, n + 1)
        case Running(final) => Running(final)
  }

  /** The loop after its first cycle, when that cycle does not stop it. */
  lemma RunLoopCons(st: RunState, cycles: seq<Cycle>, s: Settings)
    requires |cycles| > 0
    requires !ShouldStop(NextState(st, cycles[0], s).progress, IsAtBottom(cycles[0].after))
    ensures var rest := RunLoop(NextState(st, cycles[0], s), cycles[1..], s);
      && RunLoop(st, cycles, s).state == rest.state
      && Consumed(RunLoop(st, cycles, s), |cycles|) == Consumed(rest, |cycles| - 1) + 1
      && RunLoop(st, cycles, s).Stopped? == rest.Stopped?
  {
  }

  /**
   * The collection the loop ends with, tied to the cycles it consumed: the
   * hrefs collected are the starting ones plus exactly those the consumed
   * cycles offered.
   */
  lemma {:induction false} RunLoopKeys(st: RunState, cycles: seq<Cycle>, s: Settings)
    ensures var r := RunLoop(st, cycles, s);
      KeysOf(r.state.collected) == KeysOf(st.collected) + CycleKeys(cycles, Consumed(r, |cycles|))
    decreases |cycles|
  {
    if |cycles| > 0 {
      var next := NextState(st, cycles[0], s);
      if ShouldStop(next.progress, IsAtBottom(cycles[0].after)) {
        RunLoopKeysStop(st, cycles, s);
      } else {
        var rest := RunLoop(next, cycles[1..], s);
        RunLoopCons(st, cycles, s);
        RunLoopKeys(next, cycles[1..], s);
        KeysCons(st, cycles, s, Consumed(rest, |cycles| - 1), rest.state);
      }
    }
  }

  /** A loop that stops at its first cycle collects what that cycle offers. */
  lemma RunLoopKeysStop(st: RunState, cycles: seq<Cycle>, s: Settings)
    requires |cycles| > 0
    requires ShouldStop(NextState(st, cycles[0], s).progress, IsAtBottom(cycles[0].after))
    ensures var r := RunLoop(st, cycles, s);
      KeysOf(r.state.collected) == KeysOf(st.collected) + CycleKeys(cycles, Consumed(r, |cycles|))
  {
    assert CycleKeys(cycles, 1) == RowKeys(cycles[0].rows);
  }

  /** The hrefs gained over one more cycle in front are those its rows offer. */
  lemma KeysCons(st: RunState, cycles: seq<Cycle>, s: Settings, n: nat, final: RunState)
    requires |cycles| > 0
    requires KeysOf(final.collected) == KeysOf(NextState(st, cycles[0], s).collected) + CycleKeys(cycles[1..], n)
    ensures KeysOf(final.collected) == KeysOf(st.collected) + CycleKeys(cycles, n + 1)
  {
    assert CycleKeys(cycles, n + 1) == RowKeys(cycles[0].rows) + CycleKeys(cycles[1..], n);
  }

  /** The mark the loop ends with is the starting mark or the batch maximum of a consumed cycle. */
  lemma {:induction false} RunLoopMark(st: RunState, cycles: seq<Cycle>, s: Settings)
    ensures var r := RunLoop(st, cycles, s);
      MarkObserved(cycles, Consumed(r, |cycles|), st.progress.lastHighestIndex, r.state.progress.lastHighestIndex)
    decreases |cycles|
  {
    if |cycles| > 0 {
      var next := NextState(st, cycles[0], s);
      if !ShouldStop(next.progress, IsAtBottom(cycles[0].after)) {
        var rest := RunLoop(next, cycles[1..], s);
        RunLoopCons(st, cycles, s);
        RunLoopMark(next, cycles[1..], s);
        MarkObservedCons(cycles, Consumed(rest, |cycles| - 1), st.progress.lastHighestIndex,
          next.progress.lastHighestIndex, rest.state.progress.lastHighestIndex);
      }
    }
  }

  /**
   * Stall exit: with no progress and never at the bottom, a run whose counter
   * is `k` stops after exactly `StallCap + 1 - k` more cycles.
   */
  lemma {:induction false} StallStops(st: RunState, cycles: seq<Cycle>, s: Settings)
    requires st.progress.noNewDataCount <= StallCap
    requires |cycles| >= StallCap + 1 - st.progress.noNewDataCount
    requires forall i | 0 <= i < |cycles| ::
      BatchMax(cycles[i].rows) <= st.progress.lastHighestIndex && !IsAtBottom(cycles[i].after)
    ensures RunLoop(st, cycles, s).Stopped?
    ensures RunLoop(st, cycles, s).cycles == StallCap + 1 - st.progress.noNewDataCount
    decreases |cycles|
  {
    var next := NextState(st, cycles[0], s);
    if !ShouldStop(next.progress, IsAtBottom(cycles[0].after)) {
      assert forall i | 0 <= i < |cycles| - 1 :: cycles[1..][i] == cycles[i + 1];
      StallStops(next, cycles[1..], s);
    }
  }

  /** With no progress from the start and never at the bottom, the loop runs exactly six cycles. */
  lemma StallFromStart(c: Collection, cycles: seq<Cycle>, s: Settings)
    requires |cycles| >= StallCap + 1
    requires forall i | 0 <= i < |cycles| :: BatchMax(cycles[i].rows) <= 0 && !IsAtBottom(cycles[i].after)
    ensures RunLoop(RunState(c, Start), cycles, s).Stopped?
    ensures RunLoop(RunState(c, Start), cycles, s).cycles == StallCap + 1
  {
    StallStops(RunState(c, Start), cycles, s);
  }

  /**
   * Bottom exit: once every cycle is at the bottom and brings no progress,
   * the loop stops within two cycles (one when the counter is already positive).
   */
  lemma {:induction false} BottomStops(st: RunState, cycles: seq<Cycle>, s: Settings)
    requires |cycles| >= BottomStagnation
    requires forall i | 0 <= i < |cycles| ::
      BatchMax(cycles[i].rows) <= st.progress.lastHighestIndex && IsAtBottom(cycles[i].after)
    ensures RunLoop(st, cycles, s).Stopped?
    ensures RunLoop(st, cycles, s).cycles == if st.progress.noNewDataCount >= 1 then 1 else 2
  {
    var next := NextState(st, cycles[0], s);
    if st.progress.noNewDataCount == 0 {
      var extraction' := ExtractVisibleRows(next.collected, cycles[1].rows, s);
      assert cycles[1..][0] == cycles[1];
      assert RunLoop(next, cycles[1..], s).cycles == 1;
    }
  }

  /**
   * Termination: if no batch ever exceeds `bound`, each progressing cycle
   * raises the mark by at least one and at most `StallCap` cycles pass
   * between progressing ones, so enough observed cycles always end the loop.
   */
  lemma {:induction false} BoundedIndicesStop(st: RunState, cycles: seq<Cycle>, s: Settings, bound: int)
    requires st.progress.lastHighestIndex <= bound
    requires st.progress.noNewDataCount <= StallCap
    requires forall i | 0 <= i < |cycles| :: BatchMax(cycles[i].rows) <= bound
    requires |cycles| >= StopMeasure(st.progress, bound)
    ensures RunLoop(st, cycles, s).Stopped?
    decreases |cycles|
  {
    var next := NextState(st, cycles[0], s);
    var atBottom := IsAtBottom(cycles[0].after);
    if !ShouldStop(next.progress, atBottom) {
      assert next.progress == Step(st.progress, BatchMax(cycles[0].rows));
      StepLowersMeasure(st.progress, BatchMax(cycles[0].rows), atBottom, bound);
      assert forall i | 0 <= i < |cycles| - 1 :: cycles[1..][i] == cycles[i + 1];
      BoundedIndicesStop(next, cycles[1..], s, bound);
      RunLoopCons(st, cycles, s);
    }
  }

  /**
   * The cycles still needed, at most, before the loop must stop: `StallCap + 1`
   * for each index the mark can still gain below `bound`, plus the
   * non-progressing cycles left before the stall exit.
   */
  function StopMeasure(p: Progress, bound: int): int {
    (StallCap + 1) * (bound - p.lastHighestIndex) + StallCap + 1 - p.noNewDataCount
  }

  /** A cycle that does not end the loop keeps the bounds and lowers the measure. */
  lemma StepLowersMeasure(p: Progress, batchMax: int, atBottom: bool, bound: int)
    requires p.lastHighestIndex <= bound && p.noNewDataCount <= StallCap && batchMax <= bound
    requires !ShouldStop(Step(p, batchMax), atBottom)
    ensures var q := Step(p, batchMax);
      && q.lastHighestIndex <= bound && q.noNewDataCount <= StallCap
      && StopMeasure(q, bound) < StopMeasure(p, bound)
  {
  }

  /** From the start, `6 * (bound + 1)` cycles suffice when every index is at most `bound`. */
  lemma TerminatesFromStart(c: Collection, cycles: seq<Cycle>, s: Settings, bound: nat)
    requires forall i | 0 <= i < |cycles| :: BatchMax(cycles[i].rows) <= bound
    requires |cycles| >= (StallCap + 1) * (bound + 1)
    ensures RunLoop(RunState(c, Start), cycles, s).Stopped?
  {
    BoundedIndicesStop(RunState(c, Start), cycles, s, bound);
  }

  /** How a run ends: aborted discovery, an export, or still scrolling when the observations ran out. */
  datatype Outcome = Aborted | Exported(csv: string, cycles: nat) | StillScrolling(collected: Collection)

  /**
   * `startScraping(settings)`: discover the scroll target, run the loop from
   * an empty collection, and export once it stops.
   */
  function StartScraping(grids: seq<Grid>, cycles: seq<Cycle>, s: Settings): (r: Outcome)
    ensures r.Aborted? <==> |grids| == 0
    ensures r.Exported? <==> |grids| > 0 && RunLoop(RunState([], Start), cycles, s).Stopped?
    ensures r.Exported? ==>
      var end := RunLoop(RunState([], Start), cycles, s);
      && r.cycles == end.cycles && 1 <= r.cycles <= |cycles|
      && r.csv == DownloadCsv(end.state.collected, s)
  {
    match FindScrollableElement(grids)
    case None => Aborted
    case Some(_) =>
      var end := RunLoop(RunState([], Start), cycles, s);
      if end.Stopped? then Exported(DownloadCsv(end.state.collected, s), end.cycles)
      else StillScrolling(end.state.collected)
  }

  /**
   * What an export holds: a run from an empty map and mark 0 that stops,
   * the run `StartScraping` exports, has collected one track per key, and
   * exactly the keys of the rows seen in the consumed cycles.
   */
  lemma ScrapingCollects(cycles: seq<Cycle>, s: Settings)
    requires RunLoop(RunState([], Start), cycles, s).Stopped?
    ensures
      var end := RunLoop(RunState([], Start), cycles, s);
      && UniqueKeys(end.state.collected)
      && KeysOf(end.state.collected) == CycleKeys(cycles, end.cycles)
  {
    RunLoopKeys(RunState([], Start), cycles, s);
  }

  /**
   * A run on a page with a grid exports once enough cycles are observed:
   * `6 * (bound + 1)` when no row index exceeds `bound`.
   */
  lemma ScrapingExports(grids: seq<Grid>, cycles: seq<Cycle>, s: Settings, bound: nat)
    requires |grids| > 0
    requires forall i | 0 <= i < |cycles| :: BatchMax(cycles[i].rows) <= bound
    requires |cycles| >= (StallCap + 1) * (bound + 1)
    ensures StartScraping(grids, cycles, s).Exported?
  {
    TerminatesFromStart([], cycles, s, bound);
  }
}

=== FILE: csv.dfy ===
/**
 * `downloadCSV` up to the text payload: a header gated by the nine flags,
 * one line per collected track sorted (stably) by index, and quote doubling
 * (rule 7 of section 2 of RFC 4180) on title, artist and album. Lines end in
 * a bare `"\n"`. A small RFC 4180 record reader states what the written
 * lines mean.
 */
module Csv {
  import opened Wrappers
  import opened Text
  import opened Rows
  import opened Collection
  import opened Seqs

  /** Column labels in their fixed order, one per flag. */
  const Labels: seq<string> := ["#", "Title", "Artist", "Album", "Date Added", "Length", "URL", "Cover Art", "Explicit"]

  /** Suggested name of the exported file. */
  const FileName := "spotify_playlist.csv"

  /** The flags in column order. */
  function Flags(s: Settings): seq<bool> {
    [s.index, s.title, s.artist, s.album, s.date, s.duration, s.url, s.cover, s.explicit]
  }

  predicate IsSet(b: bool) {
    b
  }

  /** The number of set flags. */
  function CountTrue(bs: seq<bool>): nat {
    Count(bs, IsSet)
  }

  /** The elements of `xs` whose flag in `keep` is set, in order: the column gating. */
  function Select<T>(xs: seq<T>, keep: seq<bool>): (r: seq<T>)
    requires |xs| == |keep|
    ensures |r| == CountTrue(keep)
    ensures forall i | 0 <= i < |xs| && keep[i] :: CountTrue(keep[..i]) < |r| && r[CountTrue(keep[..i])] == xs[i]
    ensures forall x | x in r :: x in xs
  {
    if |xs| == 0 then []
    else
      var head := if keep[0] then [xs[0]] else [];
      var rest := Select(xs[1..], keep[1..]);
      CountCons(keep, IsSet);
      forall i | 0 < i <= |xs|
        ensures CountTrue(keep[..i]) == (if keep[0] then 1 else 0) + CountTrue(keep[1..][..i - 1])
      {
        CountCons(keep[..i], IsSet);
        assert keep[..i][1..] == keep[1..][..i - 1];
      }
      assert CountTrue(keep[..0]) == 0;
      head + rest
  }

  /** The header: one label per enabled flag, in the fixed column order. */
  function Header(s: Settings): seq<string> {
    Select(Labels, Flags(s))
  }

  function QuoteCount(v: string): nat {
    if |v| == 0 then 0 else (if v[0] == '"' then 1 else 0) + QuoteCount(v[1..])
  }

  /** `v.replace(/"/g, '""')`. */
  function Escape(v: string): (r: string)
    ensures |r| == |v| + QuoteCount(v)
  {
    if |v| == 0 then [] else (if v[0] == '"' then "\"\"" else [v[0]]) + Escape(v[1..])
  }

  /** Collapses every `""` back to `"`. */
  function Unescape(e: string): string
    decreases |e|
  {
    if |e| >= 2 && e[0] == '"' && e[1] == '"' then "\"" + Unescape(e[2..])
    else if |e| == 0 then []
    else [e[0]] + Unescape(e[1..])
  }

  lemma {:induction false} UnescapeEscape(v: string)
    ensures Unescape(Escape(v)) == v
  {
    if |v| > 0 {
      UnescapeEscape(v[1..]);
      if v[0] == '"' {
        assert Escape(v)[2..] == Escape(v[1..]);
      } else {
        assert Escape(v)[1..] == Escape(v[1..]);
      }
    }
  }

  /** A string without a double quote is its own escape. */
  lemma {:induction false} EscapeQuoteFree(v: string)
    requires '"' !in v
    ensures Escape(v) == v
  {
    if |v| > 0 {
      assert '"' !in v[1..] by {
        assert forall i | 0 <= i < |v[1..]| :: v[1..][i] == v[i + 1];
      }
      EscapeQuoteFree(v[1..]);
      assert v == [v[0]] + v[1..];
    }
  }

  /** Escaping works character by character, so it distributes over concatenation. */
  lemma {:induction false} EscapeConcat(a: string, b: string)
    ensures Escape(a + b) == Escape(a) + Escape(b)
    decreases |a|
  {
    if |a| > 0 {
      assert (a + b)[1..] == a[1..] + b;
      EscapeConcat(a[1..], b);
    } else {
      assert a + b == b;
    }
  }

  /** A quoted, escaped field: `"${v.replace(/"/g, '""')}"`. */
  function Quote(v: string): string {
    "\"" + Escape(v) + "\""
  }

  /** A quoted field without escaping: `"${v}"`. */
  function Wrap(v: string): string {
    "\"" + v + "\""
  }

  /** Without a double quote inside, quoting with and without escaping agree. */
  lemma WrapIsQuote(v: string)
    requires '"' !in v
    ensures Wrap(v) == Quote(v)
  {
    EscapeQuoteFree(v);
  }

  /** Every field `downloadCSV` can push for a track, in column order, as written. */
  function AllCells(t: Track): seq<string> {
    [IntToString(t.index), Quote(t.title), Quote(t.artist), Quote(t.album),
     Wrap(t.dateAdded), Wrap(t.duration), Wrap(t.url), Wrap(t.cover), Wrap(t.explicit)]
  }

  /** The values behind those fields, the index written as `String(index)`. */
  function AllValues(t: Track): seq<string> {
    [IntToString(t.index), t.title, t.artist, t.album,
     t.dateAdded, t.duration, t.url, t.cover, t.explicit]
  }

  /** The fields of one data line: those of the enabled columns. */
  function RowCells(t: Track, s: Settings): (r: seq<string>)
    ensures |r| == |Header(s)|
  {
    Select(AllCells(t), Flags(s))
  }

  /** The values one data line carries, before encoding. */
  function RowValues(t: Track, s: Settings): (r: seq<string>)
    ensures |r| == |Header(s)|
  {
    Select(AllValues(t), Flags(s))
  }

  // ---------------------------------------------------------------------------
  // Reading lines back (RFC 4180 section 2): the meaning of what is written.

  /** A field as RFC 4180 writes it: bare, or quoted with inner quotes doubled. */
  datatype Field = Bare(text: string) | Quoted(text: string)

  function Encode(f: Field): string {
    match f
    case Bare(t) => t
    case Quoted(t) => Quote(t)
  }

  /** A bare field may hold neither a separator nor a quote. */
  predicate Writable(f: Field) {
    f.Bare? ==> ',' !in f.text && '"' !in f.text
  }

  /** Each field as written. */
  function EncodeAll(fs: seq<Field>): seq<string> {
    Map(fs, Encode)
  }

  function FieldText(f: Field): string {
    f.text
  }

  /** The values the fields carry. */
  function TextsOf(fs: seq<Field>): seq<string> {
    Map(fs, FieldText)
  }

  /** Position of the first `ch` in `s`, or `|s|`. */
  function IndexOf(s: string, ch: char): (k: nat)
    ensures k <= |s|
    ensures forall i | 0 <= i < k :: s[i] != ch
    ensures k < |s| ==> s[k] == ch
  {
    if |s| == 0 then 0
    else if s[0] == ch then 0
    else 1 + IndexOf(s[1..], ch)
  }

  /**
   * Reads the inside of a quoted field, the opening quote already consumed:
   * the value with `""` collapsed, and what follows the closing quote.
   */
  function ReadQuoted(s: string): (r: Option<(string, string)>)
    ensures r.Some? ==> |r.value.1| < |s|
    decreases |s|
  {
    if |s| == 0 then None
    else if s[0] == '"' then
      if |s| > 1 && s[1] == '"' then
        match ReadQuoted(s[2..])
        case None => None
        case Some((v, rest)) => Some(("\"" + v, rest))
      else Some(("", s[1..]))
    else
      match ReadQuoted(s[1..])
      case None => None
      case Some((v, rest)) => Some(([s[0]] + v, rest))
  }

  /** Puts a value in front of a parsed remainder, propagating failure. */
  function Prepend(v: string, r: Option<seq<string>>): Option<seq<string>> {
    match r
    case None => None
    case Some(vs) => Some([v] + vs)
  }

  /** Splits one line into field values; `None` for a malformed line. */
  function ParseRecord(line: string): Option<seq<string>>
    decreases |line|
  {
    if |line| > 0 && line[0] == '"' then
      match ReadQuoted(line[1..])
      case None => None
      case Some((v, rest)) =>
        if |rest| == 0 then Some([v])
        else if rest[0] == ',' then Prepend(v, ParseRecord(rest[1..]))
        else None
    else
      var k := IndexOf(line, ',');
      if k == |line| then Some([line])
      else Prepend(line[..k], ParseRecord(line[k + 1..]))
  }

  lemma {:induction false} ReadQuotedEscaped(v: string, rest: string)
    requires rest == [] || rest[0] != '"'
    ensures ReadQuoted(Escape(v) + "\"" + rest) == Some((v, rest))
    decreases |v|
  {
    var s := Escape(v) + "\"" + rest;
    if |v| == 0 {
      assert s == "\"" + rest;
      assert s[1..] == rest;
    } else if v[0] == '"' {
      ReadQuotedEscaped(v[1..], rest);
      assert s == "\"\"" + (Escape(v[1..]) + "\"" + rest);
      assert s[2..] == Escape(v[1..]) + "\"" + rest;
      assert "\"" + v[1..] == v;
    } else {
      ReadQuotedEscaped(v[1..], rest);
      assert s == [v[0]] + (Escape(v[1..]) + "\"" + rest);
      assert s[1..] == Escape(v[1..]) + "\"" + rest;
      assert [v[0]] + v[1..] == v;
    }
  }

  /** A bare field ends at the first separator. */
  lemma BareFieldEnds(t: string, tail: string)
    requires ',' !in t
    requires tail == [] || tail[0] == ','
    ensures IndexOf(t + tail, ',') == |t|
    ensures (t + tail)[..|t|] == t
  {
  }

  /** A quoted field followed by nothing, or by a separator and the rest of the line. */
  lemma ParseQuotedField(v: string, tail: string)
    requires tail == [] || tail[0] == ','
    ensures ParseRecord(Quote(v) + tail) ==
      if tail == [] then Some([v]) else Prepend(v, ParseRecord(tail[1..]))
  {
    QuoteReads(v, tail);
  }

  /** The reader sees the opening quote, then reads the escaped value back up to the closing one. */
  lemma QuoteReads(v: string, tail: string)
    requires tail == [] || tail[0] == ','
    ensures var line := Quote(v) + tail;
      |line| > 0 && line[0] == '"' && ReadQuoted(line[1..]) == Some((v, tail))
  {
    var line := Quote(v) + tail;
    assert line[0] == '"' && line[1..] == Escape(v) + "\"" + tail;
    ReadQuotedEscaped(v, tail);
  }

  /** A bare field followed by nothing, or by a separator and the rest of the line. */
  lemma ParseBareField(t: string, tail: string)
    requires ',' !in t && '"' !in t
    requires tail == [] || tail[0] == ','
    ensures ParseRecord(t + tail) ==
      if tail == [] then Some([t]) else Prepend(t, ParseRecord(tail[1..]))
  {
    var line := t + tail;
    BareFieldEnds(t, tail);
    if |t| > 0 {
      assert line[0] == t[0];
    }
    if tail != [] {
      assert line[|t| + 1..] == tail[1..];
    } else {
      assert line == t;
    }
  }

  lemma ParseField(f: Field, tail: string)
    requires Writable(f)
    requires tail == [] || tail[0] == ','
    ensures ParseRecord(Encode(f) + tail) ==
      if tail == [] then Some([f.text]) else Prepend(f.text, ParseRecord(tail[1..]))
  {
    match f
    case Quoted(v) => ParseQuotedField(v, tail);
    case Bare(t) => ParseBareField(t, tail);
  }

  /** Encoding splits at the first field. */
  lemma EncodeAllCons(fs: seq<Field>)
    requires |fs| > 0
    ensures EncodeAll(fs) == [Encode(fs[0])] + EncodeAll(fs[1..])
  {
    var e, r := EncodeAll(fs), [Encode(fs[0])] + EncodeAll(fs[1..]);
    forall i | 0 <= i < |fs|
      ensures e[i] == r[i]
    {
      if i > 0 {
        assert r[i] == EncodeAll(fs[1..])[i - 1];
      }
    }
  }

  /** Taking values splits at the first field. */
  lemma TextsOfCons(fs: seq<Field>)
    requires |fs| > 0
    ensures TextsOf(fs) == [fs[0].text] + TextsOf(fs[1..])
  {
    var v, r := TextsOf(fs), [fs[0].text] + TextsOf(fs[1..]);
    forall i | 0 <= i < |fs|
      ensures v[i] == r[i]
    {
      if i > 0 {
        assert r[i] == TextsOf(fs[1..])[i - 1];
      }
    }
  }

  /** Joining encoded fields with `,` and reading the line back yields the values. */
  lemma {:induction false} ParseJoined(fs: seq<Field>)
    requires |fs| > 0
    requires forall i | 0 <= i < |fs| :: Writable(fs[i])
    ensures ParseRecord(Join(EncodeAll(fs), ",")) == Some(TextsOf(fs))
    decreases |fs|
  {
    var parts := EncodeAll(fs);
    EncodeAllCons(fs);
    TextsOfCons(fs);
    if |fs| == 1 {
      ParseField(fs[0], "");
      assert Join(parts, ",") == Encode(fs[0]) + "";
      assert TextsOf(fs) == [fs[0].text] by {
        assert TextsOf(fs[1..]) == [];
      }
    } else {
      var tail := "," + Join(parts[1..], ",");
      JoinCons(parts, ",");
      ParseField(fs[0], tail);
      assert tail[1..] == Join(parts[1..], ",");
      ParseJoined(fs[1..]);
    }
  }

  /** Every field `downloadCSV` can push, as RFC 4180 would encode it. */
  function AllFields(t: Track): seq<Field> {
    [Bare(IntToString(t.index)), Quoted(t.title), Quoted(t.artist), Quoted(t.album),
     Quoted(t.dateAdded), Quoted(t.duration), Quoted(t.url), Quoted(t.cover), Quoted(t.explicit)]
  }

  /** Gating commutes with encoding. */
  lemma {:induction false} SelectEncode(fs: seq<Field>, keep: seq<bool>)
    requires |fs| == |keep|
    ensures EncodeAll(Select(fs, keep)) == Select(EncodeAll(fs), keep)
  {
    if |fs| > 0 {
      var head: seq<Field> := if keep[0] then [fs[0]] else [];
      var r := Select(fs, keep);
      assert r == head + Select(fs[1..], keep[1..]);
      SelectEncode(fs[1..], keep[1..]);
      assert EncodeAll(fs)[1..] == EncodeAll(fs[1..]);
      assert EncodeAll(r) == EncodeAll(head) + EncodeAll(Select(fs[1..], keep[1..]));
    }
  }

  /** Gating commutes with taking the values. */
  lemma {:induction false} SelectTexts(fs: seq<Field>, keep: seq<bool>)
    requires |fs| == |keep|
    ensures TextsOf(Select(fs, keep)) == Select(TextsOf(fs), keep)
  {
    if |fs| > 0 {
      var head: seq<Field> := if keep[0] then [fs[0]] else [];
      var r := Select(fs, keep);
      assert r == head + Select(fs[1..], keep[1..]);
      SelectTexts(fs[1..], keep[1..]);
      assert TextsOf(fs)[1..] == TextsOf(fs[1..]);
      assert TextsOf(r) == TextsOf(head) + TextsOf(Select(fs[1..], keep[1..]));
    }
  }

  /** Selected fields of writable fields are writable. */
  lemma SelectWritable(all: seq<Field>, keep: seq<bool>)
    requires |all| == |keep|
    requires forall i | 0 <= i < |all| :: Writable(all[i])
    ensures forall i | 0 <= i < |Select(all, keep)| :: Writable(Select(all, keep)[i])
  {
    var fs := Select(all, keep);
    forall i | 0 <= i < |fs|
      ensures Writable(fs[i])
    {
      assert fs[i] in all;
    }
  }

  /** The five fields written without escaping hold no double quote. */
  predicate UnescapedFieldsQuoteFree(t: Track) {
    && '"' !in t.dateAdded && '"' !in t.duration && '"' !in t.url
    && '"' !in t.cover && '"' !in t.explicit
  }

  /** Under that condition the fields as written are the RFC 4180 encodings of the values. */
  lemma AllFieldsEncode(t: Track)
    requires UnescapedFieldsQuoteFree(t)
    ensures EncodeAll(AllFields(t)) == AllCells(t)
  {
    WrapIsQuote(t.dateAdded);
    WrapIsQuote(t.duration);
    WrapIsQuote(t.url);
    WrapIsQuote(t.cover);
    WrapIsQuote(t.explicit);
    var fs := AllFields(t);
    var e := EncodeAll(fs);
    var c := AllCells(t);
    forall i | 0 <= i < 9
      ensures e[i] == c[i]
    {
      assert e[i] == Encode(fs[i]);
    }
  }

  lemma AllFieldsWritable(t: Track)
    ensures TextsOf(AllFields(t)) == AllValues(t)
    ensures forall i | 0 <= i < |AllFields(t)| :: Writable(AllFields(t)[i])
  {
    var n := IntToString(t.index);
    assert ',' !in n && '"' !in n;
    var v := TextsOf(AllFields(t));
    assert forall i | 0 <= i < 9 :: v[i] == AllValues(t)[i];
  }

  /**
   * A data line reads back, field for field, as the track's values (the index
   * as `String(index)`), provided the fields written without escaping hold no
   * double quote and at least one column is enabled.
   */
  lemma RowRoundTrip(t: Track, s: Settings)
    requires UnescapedFieldsQuoteFree(t)
    requires CountTrue(Flags(s)) > 0
    ensures ParseRecord(Join(RowCells(t, s), ",")) == Some(RowValues(t, s))
  {
    var all := AllFields(t);
    AllFieldsEncode(t);
    AllFieldsWritable(t);
    SelectWritable(all, Flags(s));
    SelectEncode(all, Flags(s));
    SelectTexts(all, Flags(s));
    ParseJoined(Select(all, Flags(s)));
  }

  /** The labels as bare fields. */
  function LabelFields(): (r: seq<Field>)
    ensures |r| == |Labels|
    ensures forall i | 0 <= i < |r| :: r[i] == Bare(Labels[i])
  {
    seq(|Labels|, i requires 0 <= i < |Labels| => Bare(Labels[i]))
  }

  /** No label needs quoting: none holds a separator or a double quote. */
  lemma LabelFieldsWritable()
    ensures forall i | 0 <= i < |LabelFields()| :: Writable(LabelFields()[i])
  {
    var all := LabelFields();
    forall i | 0 <= i < |all|
      ensures Writable(all[i])
    {
      assert all[i] == Bare(Labels[i]);
    }
  }

  /** The label fields are written as the labels themselves, and carry them as their texts. */
  lemma LabelFieldsPlain()
    ensures forall i | 0 <= i < |LabelFields()| :: Writable(LabelFields()[i])
    ensures EncodeAll(LabelFields()) == Labels
    ensures TextsOf(LabelFields()) == Labels
  {
    LabelFieldsWritable();
  }

  /** The header line reads back as the enabled labels. */
  lemma HeaderRoundTrip(s: Settings)
    requires CountTrue(Flags(s)) > 0
    ensures ParseRecord(Join(Header(s), ",")) == Some(Header(s))
  {
    var all := LabelFields();
    LabelFieldsPlain();
    SelectWritable(all, Flags(s));
    SelectEncode(all, Flags(s));
    SelectTexts(all, Flags(s));
    ParseJoined(Select(all, Flags(s)));
  }

  // ---------------------------------------------------------------------------
  // Ordering: `sort((a, b) => a.index - b.index)`, which is stable.

  ghost predicate SortedByIndex(ts: seq<Track>) {
    forall i, j | 0 <= i < j < |ts| :: ts[i].index <= ts[j].index
  }

  /** The tracks with index `k`, in order: stability means sorting keeps this list. */
  function WithIndex(ts: seq<Track>, k: int): seq<Track> {
    if |ts| == 0 then []
    else WithIndex(ts[..|ts| - 1], k) + (if ts[|ts| - 1].index == k then [ts[|ts| - 1]] else [])
  }

  lemma WithIndexSnoc(ts: seq<Track>, x: Track)
    ensures forall k :: WithIndex(ts + [x], k) == WithIndex(ts, k) + (if x.index == k then [x] else [])
  {
    assert (ts + [x])[..|ts|] == ts;
  }

  /** Appending an element no smaller than the sorted prefix keeps it sorted. */
  lemma SortedSnoc(ts: seq<Track>, x: Track)
    requires SortedByIndex(ts)
    requires forall y | y in ts :: y.index <= x.index
    ensures SortedByIndex(ts + [x])
  {
    assert forall i | 0 <= i < |ts| :: ts[i] in ts;
  }

  /** Every element of `r`, a rearrangement of `ts` plus `x`, is bounded when they are. */
  lemma BoundedByMultiset(r: seq<Track>, ts: seq<Track>, x: Track, bound: int)
    requires multiset(r) == multiset(ts) + multiset{x}
    requires forall y | y in ts :: y.index <= bound
    requires x.index <= bound
    ensures forall y | y in r :: y.index <= bound
  {
    forall y | y in r
      ensures y.index <= bound
    {
      assert y in multiset(r);
      assert y in multiset(ts) || y == x;
    }
  }

  /** `r` is `ts` with `x` inserted: sorted, same elements, and `x` last among its equals. */
  ghost predicate InsertedAs(r: seq<Track>, ts: seq<Track>, x: Track) {
    && SortedByIndex(r)
    && multiset(r) == multiset(ts) + multiset{x}
    && forall k :: WithIndex(r, k) == WithIndex(ts, k) + (if x.index == k then [x] else [])
  }

  /** Insertion at the end, when the last element is not greater than `x`. */
  lemma InsertAtEnd(x: Track, ts: seq<Track>)
    requires SortedByIndex(ts)
    requires |ts| == 0 || ts[|ts| - 1].index <= x.index
    ensures InsertedAs(ts + [x], ts, x)
  {
    WithIndexSnoc(ts, x);
    assert forall y | y in ts :: y.index <= x.index by {
      assert forall i | 0 <= i < |ts| :: ts[i].index <= ts[|ts| - 1].index;
    }
    SortedSnoc(ts, x);
  }

  /** Sortedness survives putting the sorted, larger last element back after the insertion. */
  lemma SortedBeforeLast(x: Track, ts: seq<Track>, r': seq<Track>)
    requires SortedByIndex(ts) && |ts| > 0
    requires x.index < ts[|ts| - 1].index
    requires SortedByIndex(r') && multiset(r') == multiset(ts[..|ts| - 1]) + multiset{x}
    ensures SortedByIndex(r' + [ts[|ts| - 1]])
  {
    var init := ts[..|ts| - 1];
    var last := ts[|ts| - 1];
    assert forall y | y in init :: y.index <= last.index by {
      assert forall i | 0 <= i < |init| :: init[i] == ts[i];
    }
    BoundedByMultiset(r', init, x, last.index);
    SortedSnoc(r', last);
  }

  /** The same last element appended to both sides keeps the per-index lists related. */
  lemma WithIndexBeforeLast(x: Track, ts: seq<Track>, r': seq<Track>)
    requires |ts| > 0 && x.index < ts[|ts| - 1].index
    requires forall k :: WithIndex(r', k) == WithIndex(ts[..|ts| - 1], k) + (if x.index == k then [x] else [])
    ensures forall k :: WithIndex(r' + [ts[|ts| - 1]], k) == WithIndex(ts, k) + (if x.index == k then [x] else [])
  {
    var init := ts[..|ts| - 1];
    var last := ts[|ts| - 1];
    assert ts == init + [last];
    WithIndexSnoc(r', last);
    WithIndexSnoc(init, last);
  }

  /** The same last element appended to both sides keeps the multisets related. */
  lemma MultisetBeforeLast(x: Track, ts: seq<Track>, r': seq<Track>)
    requires |ts| > 0
    requires multiset(r') == multiset(ts[..|ts| - 1]) + multiset{x}
    ensures multiset(r' + [ts[|ts| - 1]]) == multiset(ts) + multiset{x}
  {
    assert ts == ts[..|ts| - 1] + [ts[|ts| - 1]];
  }

  /** Insertion before a last element greater than `x`. */
  lemma InsertBeforeLast(x: Track, ts: seq<Track>, r': seq<Track>)
    requires SortedByIndex(ts) && |ts| > 0
    requires x.index < ts[|ts| - 1].index
    requires InsertedAs(r', ts[..|ts| - 1], x)
    ensures InsertedAs(r' + [ts[|ts| - 1]], ts, x)
  {
    SortedBeforeLast(x, ts, r');
    WithIndexBeforeLast(x, ts, r');
    MultisetBeforeLast(x, ts, r');
  }

  /** Inserts `x` after every element whose index is not greater. */
  function Insert(x: Track, ts: seq<Track>): (r: seq<Track>)
    requires SortedByIndex(ts)
    ensures SortedByIndex(r)
    ensures multiset(r) == multiset(ts) + multiset{x}
    ensures forall k :: WithIndex(r, k) == WithIndex(ts, k) + (if x.index == k then [x] else [])
  {
    if |ts| == 0 || ts[|ts| - 1].index <= x.index then
      InsertAtEnd(x, ts);
      ts + [x]
    else
      var r' := Insert(x, ts[..|ts| - 1]);
      InsertBeforeLast(x, ts, r');
      r' + [ts[|ts| - 1]]
  }

  /** Insertion sort by index; stable, as `Array.prototype.sort` is. */
  function SortByIndex(ts: seq<Track>): (r: seq<Track>)
    ensures |r| == |ts|
    ensures SortedByIndex(r)
    ensures multiset(r) == multiset(ts)
    ensures forall k :: WithIndex(r, k) == WithIndex(ts, k)
  {
    if |ts| == 0 then []
    else
      var init := ts[..|ts| - 1];
      var last := ts[|ts| - 1];
      assert ts == init + [last];
      var r := Insert(last, SortByIndex(init));
      assert |r| == |multiset(r)|;
      WithIndexSnoc(init, last);
      r
  }

  // ---------------------------------------------------------------------------
  // The payload.

  /** The header and one line of fields per collected track, sorted by index. */
  function Table(c: Collection, s: Settings): (r: seq<seq<string>>)
    ensures |r| == |c| + 1
    ensures r[0] == Header(s)
    ensures forall i | 0 <= i < |r| :: |r[i]| == |Header(s)|
  {
    var sorted := SortByIndex(Values(c));
    [Header(s)] + seq(|c|, i requires 0 <= i < |c| => RowCells(sorted[i], s))
  }

  /** Each line's fields joined with `,` and ended by `"\n"`. */
  function Render(lines: seq<seq<string>>): string {
    if |lines| == 0 then "" else Join(lines[0], ",") + "\n" + Render(lines[1..])
  }

  /** The text `downloadCSV` hands to the file-export sink. */
  function DownloadCsv(c: Collection, s: Settings): string {
    Render(Table(c, s))
  }

  // ---------------------------------------------------------------------------
  // Reading the file back line by line.

  /** Cuts a text at each `"\n"`: the lines a reader of the file sees. */
  function SplitLines(text: string): (r: seq<string>)
    ensures forall i | 0 <= i < |r| :: '\n' !in r[i]
    decreases |text|
  {
    if |text| == 0 then []
    else
      var k := IndexOf(text, '\n');
      assert forall i | 0 <= i < k :: text[..k][i] == text[i];
      if k == |text| then [text] else [text[..k]] + SplitLines(text[k + 1..])
  }

  /** The first line break of `a + "\n" + b` is the one after `a` when `a` holds none. */
  lemma IndexOfAfter(a: string, b: string, ch: char)
    requires ch !in a
    ensures IndexOf(a + [ch] + b, ch) == |a|
  {
    var text := a + [ch] + b;
    var k := IndexOf(text, ch);
    assert text[|a|] == ch;
    assert forall i | 0 <= i < |a| :: text[i] == a[i];
  }

  /** A character other than the double quote occurs in an escaped value exactly when it occurs in the value. */
  lemma {:induction false} EscapeChars(v: string, ch: char)
    requires ch != '"'
    ensures ch in Escape(v) <==> ch in v
  {
    if |v| > 0 {
      EscapeChars(v[1..], ch);
      assert v == [v[0]] + v[1..];
    }
  }

  /** No text field of the track holds a line break. */
  predicate SingleLine(t: Track) {
    && '\n' !in t.title && '\n' !in t.artist && '\n' !in t.album
    && '\n' !in t.dateAdded && '\n' !in t.duration && '\n' !in t.url
    && '\n' !in t.cover && '\n' !in t.explicit
  }

  /** Quoting, escaped or not, adds no line break. */
  lemma QuoteSingleLine(v: string)
    requires '\n' !in v
    ensures '\n' !in Quote(v) && '\n' !in Wrap(v)
  {
    EscapeChars(v, '\n');
  }

  lemma AllCellsSingleLine(t: Track)
    requires SingleLine(t)
    ensures forall j | 0 <= j < |AllCells(t)| :: '\n' !in AllCells(t)[j]
  {
    var n := IntToString(t.index);
    assert '\n' !in n;
    QuoteSingleLine(t.title);
    QuoteSingleLine(t.artist);
    QuoteSingleLine(t.album);
    QuoteSingleLine(t.dateAdded);
    QuoteSingleLine(t.duration);
    QuoteSingleLine(t.url);
    QuoteSingleLine(t.cover);
    QuoteSingleLine(t.explicit);
  }

  /** The fields of a single-line track hold no line break once encoded. */
  lemma CellsSingleLine(t: Track, s: Settings)
    requires SingleLine(t)
    ensures forall j | 0 <= j < |RowCells(t, s)| :: '\n' !in RowCells(t, s)[j]
  {
    var all := AllCells(t);
    AllCellsSingleLine(t);
    var r := RowCells(t, s);
    forall j | 0 <= j < |r|
      ensures '\n' !in r[j]
    {
      assert r[j] in Select(all, Flags(s));
    }
  }

  /** Rendered lines whose fields hold no line break split back into the joined lines. */
  lemma {:induction false} RenderLines(lines: seq<seq<string>>)
    requires forall i, j | 0 <= i < |lines| && 0 <= j < |lines[i]| :: '\n' !in lines[i][j]
    ensures SplitLines(Render(lines)) == seq(|lines|, i requires 0 <= i < |lines| => Join(lines[i], ","))
  {
    if |lines| > 0 {
      var rest := lines[1..];
      JoinChars(lines[0], ",", '\n');
      SplitAfterLine(Join(lines[0], ","), Render(rest));
      assert forall i | 0 <= i < |rest| :: rest[i] == lines[i + 1];
      RenderLines(rest);
      assert lines == [lines[0]] + rest;
      JoinedLines(lines[0], rest);
    }
  }

  /** A text that starts with a line holding no line break splits into that line and the rest. */
  lemma SplitAfterLine(first: string, rest: string)
    requires '\n' !in first
    ensures SplitLines(first + "\n" + rest) == [first] + SplitLines(rest)
  {
    var text := first + "\n" + rest;
    IndexOfAfter(first, rest, '\n');
    assert text[..|first|] == first;
    assert text[|first| + 1..] == rest;
  }

  /** No label holds a line break. */
  lemma HeaderSingleLine(s: Settings)
    ensures forall j | 0 <= j < |Header(s)| :: '\n' !in Header(s)[j]
  {
    var labels := Labels;
    assert forall k | 0 <= k < |labels| :: '\n' !in labels[k] by {
      assert labels[0] == "#" && labels[1] == "Title" && labels[2] == "Artist";
      assert labels[3] == "Album" && labels[4] == "Date Added" && labels[5] == "Length";
      assert labels[6] == "URL" && labels[7] == "Cover Art" && labels[8] == "Explicit";
    }
    forall j | 0 <= j < |Header(s)|
      ensures '\n' !in Header(s)[j]
    {
      assert Header(s)[j] in labels;
    }
  }

  /** Sorting keeps the tracks, so a sorted single-line track encodes without a line break. */
  lemma SortedSingleLine(c: Collection, s: Settings, i: int)
    requires forall i | 0 <= i < |c| :: SingleLine(c[i].track)
    requires 0 <= i < |c|
    ensures forall j | 0 <= j < |RowCells(SortByIndex(Values(c))[i], s)| :: '\n' !in RowCells(SortByIndex(Values(c))[i], s)[j]
  {
    var values := Values(c);
    var t := SortByIndex(values)[i];
    assert t in multiset(values);
    var k :| 0 <= k < |values| && values[k] == t;
    CellsSingleLine(c[k].track, s);
  }

  /** Line `i + 1` of the table holds the fields of the `i`-th track in index order. */
  lemma TableRow(c: Collection, s: Settings, i: int)
    requires 0 <= i < |c|
    ensures Table(c, s)[i + 1] == RowCells(SortByIndex(Values(c))[i], s)
  {
    var sorted := SortByIndex(Values(c));
    var rows := seq(|c|, k requires 0 <= k < |c| => RowCells(sorted[k], s));
    assert Table(c, s) == [Header(s)] + rows;
    assert ([Header(s)] + rows)[i + 1] == rows[i];
  }

  /** No field of the table of single-line tracks holds a line break. */
  lemma TableSingleLine(c: Collection, s: Settings)
    requires forall i | 0 <= i < |c| :: SingleLine(c[i].track)
    ensures forall i, j | 0 <= i < |Table(c, s)| && 0 <= j < |Table(c, s)[i]| :: '\n' !in Table(c, s)[i][j]
  {
    var values := Values(c);
    var sorted := SortByIndex(values);
    var table := Table(c, s);
    HeaderSingleLine(s);
    forall i | 1 <= i < |table|
      ensures forall j | 0 <= j < |table[i]| :: '\n' !in table[i][j]
    {
      TableRow(c, s, i - 1);
      SortedSingleLine(c, s, i - 1);
    }
  }

  /**
   * Read line by line, the exported text is the header line followed by one
   * line per collected track in stable index order, provided no text field
   * of a collected track holds a line break.
   */
  lemma ExportLines(c: Collection, s: Settings)
    requires forall i | 0 <= i < |c| :: SingleLine(c[i].track)
    ensures var sorted := SortByIndex(Values(c));
      SplitLines(DownloadCsv(c, s)) ==
        [Join(Header(s), ",")] + seq(|c|, i requires 0 <= i < |c| => Join(RowCells(sorted[i], s), ","))
  {
    TableSingleLine(c, s);
    RenderLines(Table(c, s));
    TableJoined(c, s);
  }

  /** The table's lines, each joined with `,`: the header line, then the tracks in index order. */
  lemma TableJoined(c: Collection, s: Settings)
    ensures var table := Table(c, s);
      var sorted := SortByIndex(Values(c));
      seq(|table|, i requires 0 <= i < |table| => Join(table[i], ",")) ==
        [Join(Header(s), ",")] + seq(|c|, i requires 0 <= i < |c| => Join(RowCells(sorted[i], s), ","))
  {
    var sorted := SortByIndex(Values(c));
    var rows := seq(|c|, i requires 0 <= i < |c| => RowCells(sorted[i], s));
    assert Table(c, s) == [Header(s)] + rows;
    JoinedLines(Header(s), rows);
  }

  /** Joining each line of a header and its rows. */
  lemma JoinedLines(header: seq<string>, rows: seq<seq<string>>)
    ensures var lines := [header] + rows;
      seq(|lines|, i requires 0 <= i < |lines| => Join(lines[i], ",")) ==
        [Join(header, ",")] + seq(|rows|, i requires 0 <= i < |rows| => Join(rows[i], ","))
  {
  }
}

=== FILE: guard.dfy ===
/**
 * The injection guard: the script may be injected into the same page many
 * times, but only the first injection sets the page flag and registers the
 * message listener.
 */
module Guard {
  /** The page-global state the script touches: the guard flag and the registered listeners. */
  datatype Page = Page(hasExtractor: bool, listeners: nat)

  /** A fresh page: no flag, no listener. */
  const Fresh := Page(false, 0)

  /** One injection: leave if the flag is set, otherwise set it and add a listener. */
  function Inject(p: Page): (r: Page)
    ensures r.hasExtractor
    ensures p.hasExtractor ==> r == p
    ensures !p.hasExtractor ==> r.listeners == p.listeners + 1
  {
    if p.hasExtractor then p else Page(true, p.listeners + 1)
  }

  /** `n` injections in a row. */
  function InjectTimes(p: Page, n: nat): (r: Page)
    ensures n > 0 ==> r.hasExtractor
    ensures r.listeners >= p.listeners
  {
    if n == 0 then p else Inject(InjectTimes(p, n - 1))
  }

  /** Re-injection into a fresh page, any number of times, leaves exactly one listener. */
  lemma {:induction false} InjectedOnce(n: nat)
    requires n > 0
    ensures InjectTimes(Fresh, n) == Page(true, 1)
  {
    if n > 1 {
      InjectedOnce(n - 1);
    }
  }
}

=== FILE: patterns.dfy ===
/**
 * The two regular expressions the row parser applies to cell text, written
 * out over characters: `/^\d+:\d+$/` (a track length such as `3:45`) and
 * `/\b\d{4}\b/` (a stand-alone four-digit year). JavaScript's `\d` is
 * `[0-9]`, and `$` without the `m` flag matches only at the end of input.
 */
module Patterns {
  import opened Text

  /** `/^\d+:\d+$/.test(t)`, decided by reading the leading digit run. */
  predicate IsDuration(t: string) {
    var k := DigitRun(t);
    0 < k && k + 1 < |t| && t[k] == ':' && AllDigits(t[k + 1..])
  }

  /** The same expression read as a split: digits, a colon, digits. */
  ghost predicate DurationShape(t: string) {
    exists k | 0 < k < |t| - 1 :: t[k] == ':' && AllDigits(t[..k]) && AllDigits(t[k + 1..])
  }

  /** The colon of a split is where the leading digit run ends. */
  lemma ShapeColonEndsRun(t: string, j: int)
    requires 0 < j < |t| - 1 && t[j] == ':' && AllDigits(t[..j])
    ensures DigitRun(t) == j
  {
    var k := DigitRun(t);
    assert forall m | 0 <= m < j :: IsDigit(t[m]) by {
      assert forall m | 0 <= m < j :: t[..j][m] == t[m];
    }
    assert forall m | 0 <= m < k :: IsDigit(t[m]) by {
      assert forall m | 0 <= m < k :: t[..k][m] == t[m];
    }
  }

  lemma IsDurationIsShape(t: string)
    ensures IsDuration(t) <==> DurationShape(t)
  {
    if DurationShape(t) {
      var j :| 0 < j < |t| - 1 && t[j] == ':' && AllDigits(t[..j]) && AllDigits(t[j + 1..]);
      ShapeColonEndsRun(t, j);
    }
  }

  /** `\d{4}` at position `i` with a word boundary on each side. */
  predicate YearAt(t: string, i: int) {
    && 0 <= i && i + 4 <= |t|
    && AllDigits(t[i..i + 4])
    && (i == 0 || !IsWordChar(t[i - 1]))
    && (i + 4 == |t| || !IsWordChar(t[i + 4]))
  }

  /** `/\b\d{4}\b/.test(t)`. */
  predicate HasYear(t: string) {
    exists i | 0 <= i <= |t| - 4 :: YearAt(t, i)
  }

  /** A year match is a run of exactly four digits, not part of a longer number. */
  lemma YearIsMaximalRun(t: string, i: int)
    requires YearAt(t, i)
    ensures DigitRun(t[i..]) == 4
    ensures i == 0 || !IsDigit(t[i - 1])
  {
    DigitRunOfDigits(t[i..i + 4], t[i + 4..]);
    assert t[i..] == t[i..i + 4] + t[i + 4..];
  }

  /** The text-shape test a date-added cell must pass: "ago", a year, or a comma. */
  predicate LooksLikeDate(t: string) {
    Contains(t, "ago") || HasYear(t) || Contains(t, ",")
  }
}

=== FILE: rows.dfy ===
/**
 * The row parser: the run configuration, an immutable snapshot of one
 * rendered playlist row, and the per-row field heuristics of
 * `getRowIndex` and the body of `extractVisibleRows`.
 */
module Rows {
  import opened Wrappers
  import opened Text
  import opened Patterns
  import opened Seqs

  /** The nine export flags, in the order of the CSV columns. */
  datatype Settings = Settings(
    index: bool, title: bool, artist: bool, album: bool, date: bool,
    duration: bool, url: bool, cover: bool, explicit: bool)

  /** One `<a>` element inside a row: its `href` attribute (`""` when absent) and its text. */
  datatype Anchor = Anchor(href: string, text: string)

  /**
   * What the parser reads from one rendered `div[role="row"]`: the trimmed
   * text of each `div[role="gridcell"]` in document order, every anchor in
   * document order, the `src` of the first image, and whether some element
   * is labelled (by `aria-label` or `title`) "Explicit".
   */
  datatype RowSnapshot = RowSnapshot(
    cells: seq<string>,
    anchors: seq<Anchor>,
    imageSrc: Option<string>,
    explicitTag: bool)

  /** One collected playlist entry; disabled fields hold `""` (and `explicit` holds "No"). */
  datatype Track = Track(
    index: int, title: string, artist: string, album: string, dateAdded: string,
    duration: string, url: string, cover: string, explicit: string)

  const TrackMarker := "/track/"
  const ArtistMarker := "/artist/"
  const AlbumMarker := "/album/"
  const ArtistSeparator := "; "
  /** Prefix of every exported track URL; the href already starts with `/track/`. */
  const UrlBase := "http://open.spotify.com"
  /** A date-added cell is strictly shorter than this, counted in UTF-16 code units. */
  const DateMaxLength := 25
  /** What `getRowIndex` answers for a row it cannot read. */
  const NoIndex := -1

  /** `getRowIndex`: the integer at the start of the first cell, or -1. */
  function GetRowIndex(row: RowSnapshot): int {
    if |row.cells| == 0 then NoIndex
    else ParseInt(row.cells[0]).GetOr(NoIndex)
  }

  /** The selector `a[href*="marker"]` as a test on one anchor. */
  function LinkTo(marker: string): Anchor -> bool {
    (a: Anchor) => Contains(a.href, marker)
  }

  /** Anchors whose `href` contains `marker`, as `a[href*="marker"]` selects them. */
  function LinksTo(anchors: seq<Anchor>, marker: string): seq<Anchor> {
    Filter(anchors, LinkTo(marker))
  }

  /** `row.querySelector('a[href*="marker"]')`. */
  function FirstLinkTo(anchors: seq<Anchor>, marker: string): Option<Anchor> {
    match FirstWhere(anchors, LinkTo(marker))
    case Some(i) => Some(anchors[i])
    case None => None
  }

  /** The track link, looked up only for rows whose index could be read. */
  function TrackLink(row: RowSnapshot): Option<Anchor> {
    if GetRowIndex(row) == NoIndex then None else FirstLinkTo(row.anchors, TrackMarker)
  }

  /** The identity under which a row is collected; rows without one yield no record. */
  function RowKey(row: RowSnapshot): Option<string> {
    match TrackLink(row)
    case Some(link) => Some(link.href)
    case None => None
  }

  /** The duration rule is tried first on every cell. */
  predicate DurationCell(s: Settings, text: string) {
    s.duration && IsDuration(text)
  }

  /** A cell is taken as the date added when the duration rule did not take it. */
  predicate DateCell(s: Settings, title: string, artist: string, album: string, text: string) {
    && !DurationCell(s, text)
    && s.date
    && text != album && text != title && text != artist
    && Utf16Length(text) < DateMaxLength
    && LooksLikeDate(text)
  }

  datatype Timing = Timing(duration: string, dateAdded: string)

  /** The duration rule as a cell predicate. */
  function DurationRule(s: Settings): string -> bool {
    text => DurationCell(s, text)
  }

  /** The date rule as a cell predicate, for the title, artist and album already read. */
  function DateRule(s: Settings, title: string, artist: string, album: string): string -> bool {
    text => DateCell(s, title, artist, album, text)
  }

  /**
   * The single pass over the gridcells: each qualifying cell overwrites the
   * value found so far, so each field is `""` when no cell qualifies and
   * otherwise the text of the last qualifying cell.
   */
  function ScanCells(cells: seq<string>, s: Settings, title: string, artist: string, album: string): (r: Timing)
    ensures IsLastWhere(cells, DurationRule(s), "", r.duration)
    ensures IsLastWhere(cells, DateRule(s, title, artist, album), "", r.dateAdded)
  {
    if |cells| == 0 then Timing("", "")
    else
      var init := cells[..|cells| - 1];
      var prev := ScanCells(init, s, title, artist, album);
      var text := cells[|cells| - 1];
      assert cells == init + [text];
      IsLastWhereSnoc(init, text, DurationRule(s), "", prev.duration);
      IsLastWhereSnoc(init, text, DateRule(s, title, artist, album), "", prev.dateAdded);
      if DurationCell(s, text) then prev.(duration := text)
      else if DateCell(s, title, artist, album, text) then prev.(dateAdded := text)
      else prev
  }

  /** `a.innerText`. */
  function AnchorText(a: Anchor): string {
    a.text
  }

  /**
   * The texts of the row's artist links, `Array.from(artistLinks).map(a => a.innerText)`:
   * one per anchor whose href contains `/artist/`, in document order.
   */
  function ArtistNames(anchors: seq<Anchor>): (r: seq<string>)
    ensures |r| == Count(anchors, LinkTo(ArtistMarker))
    ensures forall i | 0 <= i < |anchors| && Contains(anchors[i].href, ArtistMarker) ::
      Count(anchors[..i], LinkTo(ArtistMarker)) < |r| && r[Count(anchors[..i], LinkTo(ArtistMarker))] == anchors[i].text
  {
    Map(LinksTo(anchors, ArtistMarker), AnchorText)
  }

  /** The record `extractVisibleRows` stores for a row with a readable index and a track link. */
  function BuildTrack(row: RowSnapshot, s: Settings, index: int, link: Anchor): Track {
    var title := if s.title then link.text else "";
    var artist := if s.artist then Join(ArtistNames(row.anchors), ArtistSeparator) else "";
    var album :=
      if s.album then
        match FirstLinkTo(row.anchors, AlbumMarker)
        case Some(a) => a.text
        case None => ""
      else "";
    var timing := if s.date || s.duration then ScanCells(row.cells, s, title, artist, album) else Timing("", "");
    var url := if s.url then UrlBase + link.href else "";
    var cover := if s.cover then row.imageSrc.GetOr("") else "";
    var explicit := if s.explicit && row.explicitTag then "Yes" else "No";
    Track(index, title, artist, album, timing.dateAdded, timing.duration, url, cover, explicit)
  }

  function TrackOf(row: RowSnapshot, s: Settings): Track
    requires RowKey(row).Some?
  {
    BuildTrack(row, s, GetRowIndex(row), TrackLink(row).value)
  }

  /**
   * `getRowIndex` answers -1 exactly when the row has no cell, its first cell
   * does not start with an integer, or that integer is itself -1.
   */
  lemma RowIndexUnreadable(row: RowSnapshot)
    ensures GetRowIndex(row) == NoIndex <==>
      || |row.cells| == 0
      || !StartsWithInteger(row.cells[0])
      || ParseInt(row.cells[0]) == Some(-1)
  {
  }

  /** A first cell rendered as `String(n)`, possibly followed by non-digit text, reads as `n`. */
  lemma RowIndexOfRendered(row: RowSnapshot, n: int, rest: string)
    requires |row.cells| > 0 && row.cells[0] == IntToString(n) + rest
    requires rest == [] || !IsDigit(rest[0])
    ensures GetRowIndex(row) == n
  {
    ParseIntOfIntToString(n, rest);
  }

  /** The track link, when found, is the first anchor pointing at a track. */
  lemma TrackLinkIsFirst(row: RowSnapshot)
    ensures TrackLink(row).Some? <==>
      GetRowIndex(row) != NoIndex && exists i | 0 <= i < |row.anchors| :: Contains(row.anchors[i].href, TrackMarker)
    ensures TrackLink(row).Some? ==>
      exists i | 0 <= i < |row.anchors| ::
        && row.anchors[i] == TrackLink(row).value
        && Contains(row.anchors[i].href, TrackMarker)
        && forall j | 0 <= j < i :: !Contains(row.anchors[j].href, TrackMarker)
  {
  }

  /** The field rules of one collected record. */
  lemma TrackFields(row: RowSnapshot, s: Settings)
    requires RowKey(row).Some?
    ensures var t := TrackOf(row, s);
      && t.index == GetRowIndex(row) && t.index != NoIndex
      && (!s.title ==> t.title == "")
      && (!s.artist ==> t.artist == "")
      && (!s.album ==> t.album == "")
      && (!s.date ==> t.dateAdded == "")
      && (!s.duration ==> t.duration == "")
      && (!s.url ==> t.url == "")
      && (!s.cover ==> t.cover == "")
      && (t.explicit == "Yes" <==> s.explicit && row.explicitTag)
      && (t.explicit == "Yes" || t.explicit == "No")
      && (s.url ==> t.url == UrlBase + RowKey(row).value)
  {
  }

  /**
   * The text fields of one collected record, each with its flag on: the
   * title is the track link's text, the artist is the artist-link texts
   * joined with `"; "`, and the cover is the first image's source, or `""`.
   */
  lemma TrackTexts(row: RowSnapshot, s: Settings)
    requires RowKey(row).Some?
    ensures var t := TrackOf(row, s);
      && (s.title ==> t.title == TrackLink(row).value.text)
      && (s.artist ==> t.artist == Join(ArtistNames(row.anchors), ArtistSeparator))
      && (s.cover ==> t.cover == row.imageSrc.GetOr(""))
  {
  }

  /**
   * With its flag on, the album of a collected record is the text of the
   * row's first album link, or `""` when there is none.
   */
  lemma TrackAlbum(row: RowSnapshot, s: Settings)
    requires RowKey(row).Some?
    ensures s.album && (forall j | 0 <= j < |row.anchors| :: !Contains(row.anchors[j].href, AlbumMarker)) ==>
      TrackOf(row, s).album == ""
    ensures forall i | 0 <= i < |row.anchors| && Contains(row.anchors[i].href, AlbumMarker) ::
      s.album && (forall j | 0 <= j < i :: !Contains(row.anchors[j].href, AlbumMarker)) ==> TrackOf(row, s).album == row.anchors[i].text
  {
    if s.album {
      var t := TrackOf(row, s);
      assert t.album == match FirstLinkTo(row.anchors, AlbumMarker) case Some(a) => a.text case None => "";
      FirstLinkToIsFirst(row.anchors, AlbumMarker);
    }
  }

  /** `querySelector('a[href*="marker"]')` finds nothing exactly when no anchor matches, else the first match. */
  lemma FirstLinkToIsFirst(anchors: seq<Anchor>, marker: string)
    ensures (forall j | 0 <= j < |anchors| :: !Contains(anchors[j].href, marker)) ==> FirstLinkTo(anchors, marker) == None
    ensures forall i | 0 <= i < |anchors| && Contains(anchors[i].href, marker) ::
      (forall j | 0 <= j < i :: !Contains(anchors[j].href, marker)) ==> FirstLinkTo(anchors, marker) == Some(anchors[i])
  {
    var found := FirstWhere(anchors, LinkTo(marker));
    if found.Some? {
      var k := found.value;
      assert LinkTo(marker)(anchors[k]);
      assert forall j | 0 <= j < k :: !LinkTo(marker)(anchors[j]);
    } else {
      assert forall j | 0 <= j < |anchors| :: !LinkTo(marker)(anchors[j]);
    }
  }

  /**
   * The timing fields of one collected record: a duration is a cell of the
   * row in the duration shape, a date added is a short, date-like cell that
   * repeats none of the text fields and is never duration-shaped. When
   * several cells qualify, the record keeps the last of them.
   */
  lemma TrackTiming(row: RowSnapshot, s: Settings)
    requires RowKey(row).Some?
    ensures var t := TrackOf(row, s);
      IsLastWhere(row.cells, DurationRule(s), "", t.duration)
    ensures var t := TrackOf(row, s);
      IsLastWhere(row.cells, DateRule(s, t.title, t.artist, t.album), "", t.dateAdded)
    ensures var t := TrackOf(row, s);
      && (t.duration == "" || (IsDuration(t.duration) && t.duration in row.cells))
      && (t.dateAdded == "" ||
           (t.dateAdded in row.cells
            && Utf16Length(t.dateAdded) < DateMaxLength
            && t.dateAdded != t.title && t.dateAdded != t.artist && t.dateAdded != t.album
            && LooksLikeDate(t.dateAdded)))
      && (s.duration ==> !IsDuration(t.dateAdded))
  {
    var t := TrackOf(row, s);
    if s.date || s.duration {
      var timing := ScanCells(row.cells, s, t.title, t.artist, t.album);
      assert timing.duration == t.duration && timing.dateAdded == t.dateAdded;
    } else {
      assert forall j | 0 <= j < |row.cells| :: !DurationRule(s)(row.cells[j]);
      assert forall j | 0 <= j < |row.cells| :: !DateRule(s, t.title, t.artist, t.album)(row.cells[j]);
    }
  }

  /**
   * Field disambiguation: with the duration flag on, the date added the scan
   * settles on never matches the duration pattern, whatever the cells hold.
   */
  lemma DurationNeverDate(cells: seq<string>, s: Settings, title: string, artist: string, album: string)
    requires s.duration
    ensures !IsDuration(ScanCells(cells, s, title, artist, album).dateAdded)
  {
    var r := ScanCells(cells, s, title, artist, album);
    var rule := DateRule(s, title, artist, album);
    if exists j | 0 <= j < |cells| :: rule(cells[j]) {
      var i :| 0 <= i < |cells| && cells[i] == r.dateAdded && rule(cells[i]) && forall j | i < j < |cells| :: !rule(cells[j]);
      assert DateCell(s, title, artist, album, cells[i]);
    } else {
      assert r.dateAdded == "";
    }
  }
}

=== FILE: scenario.dfy ===
/**
 * A row seen again after a scroll, and the quote doubling of a title with
 * quotes in it.
 */
module Scenario {
  import opened Wrappers
  import opened Text
  import opened Rows
  import opened Collection
  import opened Csv

  /** A linked row whose href the batch so far has not collected adds one record at the end. */
  lemma SnocFresh(c: Collection, rows: seq<RowSnapshot>, row: RowSnapshot, s: Settings)
    requires RowKey(row).Some? && !Has(Merge(c, rows, s), RowKey(row).value)
    ensures Merge(c, rows + [row], s) == Merge(c, rows, s) + [Entry(RowKey(row).value, TrackOf(row, s))]
  {
    MergeSnoc(c, rows, row, s);
  }

  /** A linked row extracted into an empty collection gives one record: its href and its track. */
  lemma OneRow(a: RowSnapshot, s: Settings)
    requires RowKey(a).Some?
    ensures Merge([], [a], s) == [Entry(RowKey(a).value, TrackOf(a, s))]
  {
    SnocFresh([], [], a, s);
    assert [] + [a] == [a];
  }

  /** A second linked row with a different href is appended after it, with its own track. */
  lemma TwoRows(a: RowSnapshot, b: RowSnapshot, s: Settings)
    requires RowKey(a).Some? && RowKey(b).Some? && RowKey(a) != RowKey(b)
    ensures Merge([], [a, b], s)
      == [Entry(RowKey(a).value, TrackOf(a, s)), Entry(RowKey(b).value, TrackOf(b, s))]
  {
    var ea := Entry(RowKey(a).value, TrackOf(a, s));
    OneRow(a, s);
    assert !Has([ea], RowKey(b).value);
    SnocFresh([], [a], b, s);
    assert [a] + [b] == [a, b];
  }

  /**
   * Two linked rows with different hrefs, then the first of them again after
   * a scroll: the re-sighting adds nothing.
   */
  lemma ReappearingRow(a: RowSnapshot, b: RowSnapshot, s: Settings)
    requires RowKey(a).Some? && RowKey(b).Some? && RowKey(a) != RowKey(b)
    ensures var c := Merge([], [a, b], s);
      Merge(c, [a], s) == c
  {
    TwoRows(a, b, s);
    var c := Merge([], [a, b], s);
    assert RowKeys([a]) <= KeysOf(c) by {
      assert RowKey([a][0]) == RowKey(a);
      assert c[0].key == RowKey(a).value;
    }
    MergeKnownRows(c, [a], s);
  }

  /** Two tracks already in index order stay as they are. */
  lemma SortOrdered(x: Track, y: Track)
    requires x.index < y.index
    ensures SortByIndex([x, y]) == [x, y]
  {
    var sorted := SortByIndex([x, y]);
    assert x in multiset(sorted) && y in multiset(sorted);
  }

  /** A two-entry collection lists its two tracks in order. */
  lemma ValuesOfPair(c: Collection, x: Entry, y: Entry)
    requires c == [x, y]
    ensures Values(c) == [x.track, y.track]
  {
  }

  /** When the first row has the lower index, the export lists it first. */
  lemma ReappearingRowExport(a: RowSnapshot, b: RowSnapshot, s: Settings)
    requires RowKey(a).Some? && RowKey(b).Some? && RowKey(a) != RowKey(b)
    requires GetRowIndex(a) < GetRowIndex(b)
    ensures var c := Merge(Merge([], [a, b], s), [a], s);
      SortByIndex(Values(c)) == [TrackOf(a, s), TrackOf(b, s)]
  {
    var c := Merge([], [a, b], s);
    ReappearingRow(a, b, s);
    TwoRows(a, b, s);
    ValuesOfPair(c, Entry(RowKey(a).value, TrackOf(a, s)), Entry(RowKey(b).value, TrackOf(b, s)));
    SortOrdered(TrackOf(a, s), TrackOf(b, s));
  }

  /**
   * A value such as `He said "Hi"` (quote-free text, then a quoted quote-free
   * word) is written with both quotes doubled and reads back unchanged.
   */
  lemma QuotedWord(a: string, b: string)
    requires '"' !in a && '"' !in b
    ensures Escape(a + ("\"" + (b + "\""))) == a + ("\"\"" + (b + "\"\""))
    ensures ParseRecord(Quote(a + ("\"" + (b + "\"")))) == Some([a + ("\"" + (b + "\""))])
  {
    var v := a + ("\"" + (b + "\""));
    EscapeConcat(a, "\"" + (b + "\""));
    EscapeConcat("\"", b + "\"");
    EscapeConcat(b, "\"");
    EscapeQuoteFree(a);
    EscapeQuoteFree(b);
    assert Escape("\"") == "\"\"";
    ParseQuotedField(v, []);
    assert Quote(v) + [] == Quote(v);
  }
}

=== FILE: scroll_target.dfy ===
/**
 * `findScrollableElement`: choose the playlist grid among the page's
 * `div[role="grid"]` elements, then climb from it towards `body` to the
 * first element that can scroll vertically.
 */
module ScrollTarget {
  import opened Wrappers
  import opened Seqs

  /** The computed style and sizes of one element on the ancestor walk. */
  datatype Box = Box(overflowY: string, scrollHeight: int, clientHeight: int)

  /**
   * One grid: its `aria-label` (None when absent), its `clientWidth`, its own
   * box, and the boxes of its ancestors from the parent up to, not including,
   * `body`.
   */
  datatype Grid = Grid(ariaLabel: Option<string>, clientWidth: int, box: Box, ancestors: seq<Box>)

  /** Where scrolling happens: an element on a grid's ancestor walk, or the document root. */
  datatype Target = OnWalk(grid: nat, depth: nat) | DocumentRoot

  const LibraryLabel := "Your Library"
  /** A main grid is strictly wider than this. */
  const MinMainWidth := 400

  /** The main playlist grid: not the library sidebar, and wide enough. */
  predicate IsMainGrid(g: Grid) {
    g.ariaLabel != Some(LibraryLabel) && g.clientWidth > MinMainWidth
  }

  /**
   * The `reduce` fallback: keep the previous grid only when it is strictly
   * wider, so on a tie the later grid wins.
   */
  function Widest(grids: seq<Grid>): (r: nat)
    requires |grids| > 0
    ensures r < |grids|
    ensures forall j | 0 <= j < |grids| :: grids[j].clientWidth <= grids[r].clientWidth
    ensures forall j | r < j < |grids| :: grids[j].clientWidth < grids[r].clientWidth
  {
    if |grids| == 1 then 0
    else
      var prev := Widest(grids[..|grids| - 1]);
      var last := |grids| - 1;
      assert forall j | 0 <= j < last :: grids[..last][j] == grids[j];
      if grids[prev].clientWidth > grids[last].clientWidth then prev else last
  }

  /**
   * The grid to scroll: the first main grid when there is one, else a widest
   * grid with no equally wide grid after it; none only when there is no grid.
   */
  function PreferredGrid(grids: seq<Grid>): (r: Option<nat>)
    ensures r.None? <==> |grids| == 0
    ensures r.Some? ==> r.value < |grids|
    ensures r.Some? && (exists j | 0 <= j < |grids| :: IsMainGrid(grids[j])) ==>
      IsMainGrid(grids[r.value]) && forall j | 0 <= j < r.value :: !IsMainGrid(grids[j])
    ensures r.Some? && (forall j | 0 <= j < |grids| :: !IsMainGrid(grids[j])) ==>
      && (forall j | 0 <= j < |grids| :: grids[j].clientWidth <= grids[r.value].clientWidth)
      && (forall j | r.value < j < |grids| :: grids[j].clientWidth < grids[r.value].clientWidth)
  {
    match FirstWhere(grids, IsMainGrid)
    case Some(i) => Some(i)
    case None => if |grids| > 0 then Some(Widest(grids)) else None
  }

  /** The ancestor walk, starting at the grid itself. */
  function Walk(g: Grid): seq<Box> {
    [g.box] + g.ancestors
  }

  /** An element the walk stops at: a scrolling overflow style, and content at least as tall as the view. */
  predicate CanScroll(b: Box) {
    (b.overflowY == "auto" || b.overflowY == "scroll" || b.overflowY == "hidden")
    && b.scrollHeight >= b.clientHeight
  }

  /**
   * `findScrollableElement`. Discovery fails (the alert-and-abort case) exactly
   * when the page has no grid; otherwise the target is the first element of
   * the preferred grid's walk that can scroll, or the document root when none
   * can.
   */
  function FindScrollableElement(grids: seq<Grid>): (r: Option<Target>)
    ensures r.None? <==> |grids| == 0
    ensures r.Some? && r.value.OnWalk? ==> Some(r.value.grid) == PreferredGrid(grids)
    ensures r.Some? && r.value.OnWalk? ==>
      var walk := Walk(grids[r.value.grid]);
      && r.value.depth < |walk| && CanScroll(walk[r.value.depth])
      && forall e | 0 <= e < r.value.depth :: !CanScroll(walk[e])
    ensures r.Some? && r.value.DocumentRoot? ==>
      var walk := Walk(grids[PreferredGrid(grids).value]);
      forall e | 0 <= e < |walk| :: !CanScroll(walk[e])
  {
    match PreferredGrid(grids)
    case None => None
    case Some(i) =>
      match FirstWhere(Walk(grids[i]), CanScroll)
      case Some(d) => Some(OnWalk(i, d))
      case None => Some(DocumentRoot)
  }
}

=== FILE: seqs.dfy ===
/** Searches over sequences shared by the row parser and the scroll-target search. */
module Seqs {
  import opened Wrappers

  /** `Array.prototype.findIndex`: the position of the first element satisfying `p`. */
  function FirstWhere<T>(xs: seq<T>, p: T -> bool): (r: Option<nat>)
    ensures r.None? <==> forall j | 0 <= j < |xs| :: !p(xs[j])
    ensures r.Some? ==> r.value < |xs| && p(xs[r.value])
    ensures r.Some? ==> forall j | 0 <= j < r.value :: !p(xs[j])
  {
    if |xs| == 0 then None
    else
      match FirstWhere(xs[..|xs| - 1], p)
      case Some(i) => Some(i)
      case None => if p(xs[|xs| - 1]) then Some(|xs| - 1) else None
  }

  /** How many elements of `xs` satisfy `p`. */
  function Count<T>(xs: seq<T>, p: T -> bool): nat {
    if |xs| == 0 then 0 else Count(xs[..|xs| - 1], p) + (if p(xs[|xs| - 1]) then 1 else 0)
  }

  /** Counting from the front: the first element's share, then the rest. */
  lemma {:induction false} CountCons<T>(xs: seq<T>, p: T -> bool)
    requires |xs| > 0
    ensures Count(xs, p) == (if p(xs[0]) then 1 else 0) + Count(xs[1..], p)
    decreases |xs|
  {
    if |xs| > 1 {
      var init := xs[..|xs| - 1];
      CountCons(init, p);
      assert init[1..] == xs[1..][..|xs[1..]| - 1];
      assert init[0] == xs[0];
    }
  }

  /**
   * `Array.prototype.filter`: every qualifying element, in order and with its
   * multiplicity. The qualifying element at position `i` lands at the
   * position given by the number of qualifying elements before it.
   */
  function Filter<T>(xs: seq<T>, p: T -> bool): (r: seq<T>)
    ensures |r| == Count(xs, p)
    ensures forall i | 0 <= i < |xs| && p(xs[i]) :: Count(xs[..i], p) < |r| && r[Count(xs[..i], p)] == xs[i]
    ensures forall x | x in r :: x in xs && p(x)
  {
    if |xs| == 0 then []
    else
      var init := xs[..|xs| - 1];
      var last := xs[|xs| - 1];
      var prev := Filter(init, p);
      var r := if p(last) then prev + [last] else prev;
      assert forall i | 0 <= i < |init| :: init[..i] == xs[..i] && init[i] == xs[i];
      assert xs[..|init|] == init;
      assert forall x | x in init :: x in xs;
      r
  }

  /** Concatenation is associative; stated once so that long chains need not be re-derived. */
  lemma AppendAssoc<T>(a: seq<T>, b: seq<T>, c: seq<T>)
    ensures (a + b) + c == a + (b + c)
  {
  }

  /** `xs.map(f)`: the images of the elements, position by position. */
  function Map<T, U>(xs: seq<T>, f: T -> U): (r: seq<U>)
    ensures |r| == |xs|
    ensures forall i | 0 <= i < |xs| :: r[i] == f(xs[i])
  {
    seq(|xs|, i requires 0 <= i < |xs| => f(xs[i]))
  }

  /**
   * `r` is what a loop that overwrites a variable on every match leaves in
   * it: `none` when no element satisfies `p`, else the last element that does.
   */
  ghost predicate IsLastWhere<T>(xs: seq<T>, p: T -> bool, none: T, r: T) {
    if forall j | 0 <= j < |xs| :: !p(xs[j]) then r == none
    else exists i | 0 <= i < |xs| :: xs[i] == r && p(xs[i]) && forall j | i < j < |xs| :: !p(xs[j])
  }

  /** One more element: it becomes the answer when it matches, otherwise the answer stays. */
  lemma IsLastWhereSnoc<T>(xs: seq<T>, x: T, p: T -> bool, none: T, prev: T)
    requires IsLastWhere(xs, p, none, prev)
    ensures IsLastWhere(xs + [x], p, none, if p(x) then x else prev)
  {
    var ys := xs + [x];
    assert forall j | 0 <= j < |xs| :: ys[j] == xs[j];
    if p(x) {
      assert ys[|xs|] == x;
    } else if exists j | 0 <= j < |xs| :: p(xs[j]) {
      var i :| 0 <= i < |xs| && xs[i] == prev && p(xs[i]) && forall j | i < j < |xs| :: !p(xs[j]);
      assert ys[i] == prev;
    }
  }
}

=== FILE: text.dfy ===
/**
 * Character classes, substring search, joining, and the two number/string
 * conversions the extractor relies on: `parseInt(text, 10)` when reading a
 * row's index, and `String(n)` when a bare index is written into the CSV.
 */
module Text {
  import opened Wrappers
  import opened Seqs

  predicate IsDigit(c: char) {
    '0' <= c <= '9'
  }

  /** A word character in the sense of ECMAScript's `\b`: `[A-Za-z0-9_]`. */
  predicate IsWordChar(c: char) {
    IsDigit(c) || 'a' <= c <= 'z' || 'A' <= c <= 'Z' || c == '_'
  }

  predicate AllDigits(s: string) {
    forall i | 0 <= i < |s| :: IsDigit(s[i])
  }

  /** The pattern `p` occurs in `s` starting at position `i`. */
  predicate OccursAt(s: string, p: string, i: int) {
    0 <= i && i + |p| <= |s| && s[i..i + |p|] == p
  }

  /** `s.includes(p)`. */
  predicate Contains(s: string, p: string) {
    exists i | 0 <= i <= |s| - |p| :: OccursAt(s, p, i)
  }

  /**
   * `String.prototype.length`: the number of UTF-16 code units, so a
   * character outside the Basic Multilingual Plane counts twice.
   */
  function Utf16Length(s: string): (n: nat)
    ensures |s| <= n <= 2 * |s|
  {
    if |s| == 0 then 0
    else Utf16Length(s[..|s| - 1]) + (if s[|s| - 1] as int >= 0x1_0000 then 2 else 1)
  }

  /** Text made only of Basic Multilingual Plane characters has one code unit per character. */
  lemma {:induction false} Utf16LengthOfBmp(s: string)
    requires forall i | 0 <= i < |s| :: s[i] as int < 0x1_0000
    ensures Utf16Length(s) == |s|
  {
    if |s| > 0 {
      var init := s[..|s| - 1];
      assert forall i | 0 <= i < |init| :: init[i] == s[i];
      Utf16LengthOfBmp(init);
    }
  }

  /** A character outside the Basic Multilingual Plane, written as a surrogate pair. */
  predicate IsAstral(c: char) {
    c as int >= 0x1_0000
  }

  /**
   * The code-unit count is exactly the character count plus one for each
   * character written as a surrogate pair.
   */
  lemma {:induction false} Utf16LengthCountsPairs(s: string)
    ensures Utf16Length(s) == |s| + Count(s, IsAstral)
  {
    if |s| > 0 {
      Utf16LengthCountsPairs(s[..|s| - 1]);
    }
  }

  /** Text with a character outside that plane is longer in code units than in characters. */
  lemma {:induction false} Utf16LengthOfAstral(s: string, k: int)
    requires 0 <= k < |s| && s[k] as int >= 0x1_0000
    ensures Utf16Length(s) > |s|
  {
    var init := s[..|s| - 1];
    if k < |s| - 1 {
      assert init[k] == s[k];
      Utf16LengthOfAstral(init, k);
    }
  }

  /** `Array.prototype.join(sep)` on strings. */
  function Join(parts: seq<string>, sep: string): string {
    if |parts| == 0 then ""
    else if |parts| == 1 then parts[0]
    else parts[0] + sep + Join(parts[1..], sep)
  }

  /** A join of two or more parts is the first part, the separator, and the join of the rest. */
  lemma JoinCons(parts: seq<string>, sep: string)
    requires |parts| >= 2
    ensures Join(parts, sep) == parts[0] + (sep + Join(parts[1..], sep))
  {
  }

  /**
   * A character occurs in a join exactly when it occurs in one of the parts,
   * or in the separator and there are at least two parts to separate.
   */
  lemma {:induction false} JoinChars(parts: seq<string>, sep: string, ch: char)
    ensures ch in Join(parts, sep) <==>
      (exists i | 0 <= i < |parts| :: ch in parts[i]) || (|parts| >= 2 && ch in sep)
  {
    if |parts| >= 2 {
      var rest := parts[1..];
      JoinChars(rest, sep, ch);
      assert forall i | 0 <= i < |rest| :: rest[i] == parts[i + 1];
      var whole := parts[0] + sep + Join(rest, sep);
      assert ch in whole <==> ch in parts[0] || ch in sep || ch in Join(rest, sep);
      if ch in Join(rest, sep) && !(ch in sep) {
        var i :| 0 <= i < |rest| && ch in rest[i];
        assert ch in parts[i + 1];
      }
      if exists i | 0 <= i < |parts| :: ch in parts[i] {
        var i :| 0 <= i < |parts| && ch in parts[i];
        if i > 0 {
          assert ch in rest[i - 1];
        }
      }
    }
  }

  /** Length of the longest prefix of `s` made of decimal digits. */
  function DigitRun(s: string): (k: nat)
    ensures k <= |s|
    ensures AllDigits(s[..k])
    ensures k < |s| ==> !IsDigit(s[k])
  {
    if |s| > 0 && IsDigit(s[0]) then
      var k := 1 + DigitRun(s[1..]);
      assert s[..k] == [s[0]] + s[1..][..k - 1];
      k
    else 0
  }

  function DigitValue(c: char): nat
    requires IsDigit(c)
  {
    c as int - '0' as int
  }

  /** The number a string of decimal digits denotes, most significant first. */
  function DigitsValue(d: string): nat
    requires AllDigits(d)
  {
    if |d| == 0 then 0
    else DigitsValue(d[..|d| - 1]) * 10 + DigitValue(d[|d| - 1])
  }

  /** The text starts, after an optional sign, with at least one decimal digit. */
  predicate StartsWithInteger(text: string) {
    var body := if |text| > 0 && (text[0] == '-' || text[0] == '+') then text[1..] else text;
    |body| > 0 && IsDigit(body[0])
  }

  /**
   * `parseInt(text, 10)` (section 19.2.5 of ECMA-262) on already-trimmed
   * text: an optional sign, then the longest run of decimal digits; anything
   * after the run is ignored. `None` stands for `NaN`.
   */
  function ParseInt(text: string): (r: Option<int>)
    ensures r.None? <==> !StartsWithInteger(text)
    ensures r.Some? && |text| > 0 && text[0] == '-' ==> r.value <= 0
    ensures r.Some? && !(|text| > 0 && text[0] == '-') ==> r.value >= 0
  {
    var negative := |text| > 0 && text[0] == '-';
    var body := if |text| > 0 && (text[0] == '-' || text[0] == '+') then text[1..] else text;
    var k := DigitRun(body);
    if k == 0 then None
    else if negative then Some(0 - DigitsValue(body[..k]) as int)
    else Some(DigitsValue(body[..k]))
  }

  /** Decimal digits of a natural number, without leading zeros. */
  function NatToString(n: nat): (r: string)
    ensures |r| > 0 && AllDigits(r)
    ensures r[0] == '0' <==> n == 0
    ensures |r| > 1 ==> r[0] != '0'
  {
    if n < 10 then ['0' + n as char]
    else NatToString(n / 10) + ['0' + (n % 10) as char]
  }

  /** `String(n)` for an integer-valued number. */
  function IntToString(n: int): (r: string)
    ensures |r| > 0
    ensures forall i | 0 <= i < |r| :: r[i] != ',' && r[i] != '"' && r[i] != '\n'
    ensures n >= 0 ==> AllDigits(r) && (|r| > 1 ==> r[0] != '0') && DigitsValue(r) == n
    ensures n < 0 ==> |r| >= 2 && r[0] == '-' && AllDigits(r[1..]) && r[1] != '0' && DigitsValue(r[1..]) == -n
  {
    if n < 0 then
      var d := NatToString(-n);
      DigitsValueOfNatToString(-n);
      assert ("-" + d)[1..] == d;
      "-" + d
    else
      DigitsValueOfNatToString(n);
      NatToString(n)
  }

  lemma {:induction false} DigitsValueOfNatToString(n: nat)
    ensures DigitsValue(NatToString(n)) == n
  {
    var r := NatToString(n);
    if n >= 10 {
      DigitsValueOfNatToString(n / 10);
      assert r[..|r| - 1] == NatToString(n / 10);
    }
  }

  /** A digit run followed by a non-digit (or nothing) is read exactly. */
  lemma DigitRunOfDigits(d: string, rest: string)
    requires AllDigits(d)
    requires rest == [] || !IsDigit(rest[0])
    ensures DigitRun(d + rest) == |d|
    ensures (d + rest)[..|d|] == d
    decreases |d|
  {
    if |d| > 0 {
      assert (d + rest)[1..] == d[1..] + rest;
      DigitRunOfDigits(d[1..], rest);
    } else {
      assert d + rest == rest;
    }
  }

  /** The digits of `n`, followed by non-digit text, read back as `n`. */
  lemma ParseIntOfNatToString(n: nat, rest: string)
    requires rest == [] || !IsDigit(rest[0])
    ensures ParseInt(NatToString(n) + rest) == Some(n)
  {
    var d := NatToString(n);
    DigitRunOfDigits(d, rest);
    DigitsValueOfNatToString(n);
  }

  /**
   * `parseInt` on a run of digits followed by text that does not continue
   * the run reads the run's value: leading zeros change nothing.
   */
  lemma ParseIntOfDigits(d: string, rest: string)
    requires |d| > 0 && AllDigits(d)
    requires rest == [] || !IsDigit(rest[0])
    ensures ParseInt(d + rest) == Some(DigitsValue(d))
  {
    DigitRunOfDigits(d, rest);
  }

  /** After a sign the digits are read the same way: `+` changes nothing, `-` negates. */
  lemma ParseIntOfDigitsAfterSign(c: char, d: string, rest: string)
    requires c == '+' || c == '-'
    requires |d| > 0 && AllDigits(d)
    requires rest == [] || !IsDigit(rest[0])
    ensures ParseInt([c] + (d + rest)) == Some(if c == '-' then 0 - DigitsValue(d) else DigitsValue(d))
  {
    DigitRunOfDigits(d, rest);
    ParseIntAfterSign(c, d + rest, d);
  }

  /** A sign followed by text whose leading digit run is `d`. */
  lemma ParseIntAfterSign(c: char, body: string, d: string)
    requires c == '-' || c == '+'
    requires |d| > 0 && AllDigits(d)
    requires DigitRun(body) == |d| && body[..|d|] == d
    ensures ParseInt([c] + body) == Some(if c == '-' then 0 - DigitsValue(d) else DigitsValue(d))
  {
    var text := [c] + body;
    assert text[0] == c && text[1..] == body;
  }

  /**
   * `parseInt` reads back what `String` writes, whatever non-digit text
   * follows the number.
   */
  lemma ParseIntOfIntToString(n: int, rest: string)
    requires rest == [] || !IsDigit(rest[0])
    ensures ParseInt(IntToString(n) + rest) == Some(n)
  {
    if n < 0 {
      var d := NatToString(-n);
      var text := IntToString(n) + rest;
      assert text == ['-'] + (d + rest);
      assert text[1..] == d + rest;
      DigitRunOfDigits(d, rest);
      DigitsValueOfNatToString(-n);
    } else {
      ParseIntOfNatToString(n, rest);
    }
  }
}

=== FILE: wrappers.dfy ===
/** Optional values, standing in for JavaScript's `null`, `undefined` and `NaN` results. */
module Wrappers {

  datatype Option<+T> = None | Some(value: T) {

    /** The wrapped value, or `default` when there is none. */
    function GetOr(default: T): T {
      match this
      case Some(v) => v
      case None => default
    }
  }
}
